=== FILE: README.md ===
# RestApiStore core, modelled in Dafny

RestApiStore is a small REST document store. Clients post JSON objects into `db/table` paths. The store keeps each table in SQLite, and the table's schema grows as new fields arrive. This project models the engine behind that, in five modules plus two support modules:

- **JsonResolver** (`json_resolver.dfy`):
  - the closed four-way `ValueType` and its comparison by variant;
  - the textual tags (`readable`, `make(from:)`);
  - `resolve`, which turns a JSON object into typed fields;
  - `validateTypes`, which checks fields against the registered columns.
- **SQLiteExtension** (`sqlite_extension.dfy`): the map from a column's SQLite affinity to a value kind. The registry rebuild uses it.
- **TableManager** (`table_manager.dfy`): the per-table engine.
  - Its state is a column registry (`existingColumns`) in front of an abstract SQLite table. The abstract table records whether it was created, the columns declared in it, its rows in id order, and the next auto-increment id.
  - Operations: `init` (rebuilding the registry), `createTable`, `alterTableIfNeeded`, `store` (insert, or update by `id`), `get`, `getMany`, `delete`, `deleteMany` and `schema`.
  - Each operation takes the table and returns the new table together with its result or error.
- **TableInvariants** and **TableProperties** (`table_invariants.dfy`, `table_properties.dfy`):
  - the invariant every reachable table keeps;
  - what the operations promise: schema evolution is additive, validation comes before mutation, single-row operations need exactly one row, filters are AND-ed and checked against the registry, and a store can be read back.
- **DatabaseManager** (`database_manager.dfy`): the lookup-or-create caches of connections and table managers. It carries the key-collision finding below.
- **StringExtension** (`string_extension.dfy`): `camelCaseToSnakeCase`, over ASCII.
- **Wrappers** (`wrappers.dfy`) and **JsonModel** (`json_model.dfy`): `Option`, `Result` and `Outcome`, plus parsed JSON values. Numbers in these values arrive already classified as integral, floating or neither.

Modelling decisions:

- **Errors.** A Swift `throw` becomes a `Failure` or `Fail` value. The model keeps every error case of the source. It adds two errors of its own:
  - `UnhandledBool(key)`: none of the table manager's `switch` statements has a `.bool` case, so a `bool` field that reaches one has no behaviour in the source. The model makes that explicit as an error raised at that switch. It never invents storage for booleans.
  - `SQLiteFailure`: a statement SQLite rejects.
- **Schema faults.** Which schema statements SQLite rejects is a parameter (`SchemaFaults`).
  - `createTable` appends `id` and the payload's columns to the registry inside the builder closure, before the statement runs. So a failed creation leaves the registry filled in front of a table that was never created. `StrandedStaysStranded` shows what follows from that.
- **Where a registry comes from, and what a read returns:**
  - A table manager rebuilds its registry from the column definitions SQLite reports for the table, each typed by its SQLite affinity (TableManager.swift:41-47). No separate metadata table is involved. The abstract table records those columns: `createTable` declares `id` and one column per field when the table is created, and `alterTableIfNeeded` declares each column before registering it. The table invariant states that SQLite's columns and the registry agree once the table exists. Over a stranded registry the table was never created, SQLite reports no columns, and a restart rebuilds an empty registry.
  - `get` and `getMany` omit NULL columns from the objects they return. Assigning a nil optional into a Swift dictionary removes the key, so only the non-NULL registered columns appear. They are not all the registered names.
- **Filter parsing.** Parsing filter text into `Int64` and `Double`, and which cells SQLite treats as equal to a nil literal, are kept abstract as the `FilterParsers` parameter.

## Model

| member | source | states |
|---|---|---|
| JsonResolver.TypeIsEqualIffSameTag | Sources/JsonResolver.swift:18-46 | two values compare equal by type exactly when their textual tags agree, so the four tags are pairwise distinct |
| JsonResolver.TypeIsEqualIsEquivalence | Sources/JsonResolver.swift:18-31 | the type comparison is reflexive, symmetric and transitive, whatever the payloads |
| JsonResolver.Make | Sources/JsonResolver.swift:47-60 | a value comes back exactly for the four known tags, and its tag is the string it was made from |
| JsonResolver.MakeReadableRoundTrip | Sources/JsonResolver.swift:35-60 | making a value from any value's tag gives a value of the same variant |
| JsonResolver.Classify | Sources/JsonResolver.swift:78-91 | null, arrays, objects and unclassifiable numbers are not storable; every other value is storable and keeps its payload |
| JsonResolver.ClassifyToJson | Sources/JsonResolver.swift:78-88 | writing a stored value back to JSON and classifying it again gives the same value |
| JsonResolver.FirstNamed | Sources/JsonResolver.swift:99 | the first entry with the name is found, and nothing is found exactly when no entry has it |
| JsonResolver.Resolve | Sources/JsonResolver.swift:75-95 | success exactly when every member is storable, with one field per member carrying its key and classified value; otherwise `typeNotSupported` for the first unstorable member, and no partial list |
| JsonResolver.ResolvedNamesDistinct | Sources/JsonResolver.swift:77-94 | an object's distinct keys resolve to fields with distinct names |
| JsonResolver.ValidateTypes | Sources/JsonResolver.swift:97-107 | passes exactly when every incoming field's first same-named registered column has the same variant; otherwise `typeMismatch` with the key and both tags of the first field that disagrees |
| JsonResolver.ValidateIgnoresUnregistered | Sources/JsonResolver.swift:98-101 | fields that match no registered column are never rejected |
| JsonResolver.ValidateEmptyRegistry | Sources/JsonResolver.swift:97-107 | an empty registry accepts every list of fields |
| SQLiteExtension.AffinityValueType | Sources/SQLite+extension.swift:12-23 | INTEGER and NUMERIC read as int, REAL as double, TEXT as string, anything else as unsupported, and never as bool |
| SQLiteExtension.DeclaredAffinity | Sources/TableManager.swift:56-63 | the store declares a column for every kind but bool |
| SQLiteExtension.DeclaredAffinityRoundTrip | Sources/SQLite+extension.swift:14-19 | a column the store declared reads back through its affinity as the kind it was declared for |
| TableManager.RebuildRegistry | Sources/TableManager.swift:41-47 | one registered column per reported column, same name and the kind of its affinity; a single unsupported affinity makes the rebuild fail with `unsupportedDBType` |
| TableManager.NewColumns | Sources/TableManager.swift:71-75 | a schema change adds columns for exactly the payload fields that are not `id` and not yet registered |
| TableManager.CreateColumns | Sources/TableManager.swift:54-65 | the builder closure never registers a bool column |
| TableManager.CreateColumnsStopsAtBool | Sources/TableManager.swift:54-65 | the closure registers the non-id fields in order, all of them when none is bool, else exactly those before the first bool one, whose name it reports |
| TableManager.CreateTable | Sources/TableManager.swift:50-66 | the registry gains `id` and the closure's columns whether or not creation succeeds; rows are untouched; it succeeds exactly when no field is bool and SQLite accepts the statement, and only then is the table created |
| TableManager.AlterTableIfNeeded | Sources/TableManager.swift:70-87 | rows, the creation flag and the next id are untouched; SQLite's columns and the registry only grow, the old registry staying a prefix; unique names stay unique; and only bool or rejected statements fail |
| TableManager.Assignments | Sources/TableManager.swift:97-108 | the setters name exactly the non-id fields, each with its field's value |
| TableManager.CountId | Sources/TableManager.swift:113-114 | counts the rows an id addresses, zero exactly when no row has it |
| TableManager.UpdateRows | Sources/TableManager.swift:113 | rows with other ids are unchanged; the row with the id keeps its id and gains the setters' values, and cells not named by a setter keep their values |
| TableManager.Store | Sources/TableManager.swift:89-131 | a document that fails to resolve or validate leaves the table unchanged and throws the resolver's error; the registry only grows |
| TableManager.Project | Sources/TableManager.swift:170-182 | a returned object holds, under each key, the registered column's non-NULL value written as JSON, and nothing else |
| TableManager.SchemaMembers | Sources/TableManager.swift:29-35 | the schema maps each registered name to the tag of its first column, one entry per column |
| TableManager.RowWithId | Sources/TableManager.swift:165-166 | finds a row with the id exactly when one exists |
| TableManager.WithoutId | Sources/TableManager.swift:135-136 | keeps exactly the rows with other ids, losing as many rows as carried the id |
| TableManager.Get | Sources/TableManager.swift:163-183 | nil while the registry is empty; nil exactly when no row has the id; otherwise the projection of a row with that id |
| TableManager.Delete | Sources/TableManager.swift:133-141 | no effect while the registry is empty; on a created table it succeeds exactly when one row had the id, fails with `objectNotExists(id)` otherwise, and removes only rows with that id |
| TableManager.ConditionFor | Sources/TableManager.swift:150-157 | a filter entry on a text column compares with the text itself; on an int or double column it compares with the text parsed as `Int64` or `Double`, and with nil exactly when that parse fails |
| TableManager.BuildConditions | Sources/TableManager.swift:146-158 | succeeds exactly when every filter key names a registered column, one condition per entry built from that column; otherwise `unknownFilterKey` for the first unknown key |
| TableManager.Where | Sources/TableManager.swift:159 | keeps exactly the rows whose match against the conditions equals the requested outcome |
| TableManager.GetMany | Sources/TableManager.swift:185-218 | nil while the registry is empty; an unknown filter key throws before any row is read, whatever the rows; otherwise an array |
| TableManager.DeleteMany | Sources/TableManager.swift:143-161 | no effect while the registry is empty; an unknown filter key throws and changes nothing; otherwise exactly the rows not matching every entry remain |
| TableInvariants.EmptyTableValid | Sources/TableManager.swift:23-27 | a fresh table manager without a table satisfies the invariant (unique names, `id` first, SQLite's columns equal to the registered ones once the table exists, ids ascending and below the next id, cells of their column's kind) |
| TableInvariants.NewColumnsDistinct | Sources/TableManager.swift:71-75 | the columns a schema change adds have unique names |
| TableInvariants.FirstUnaddable | Sources/TableManager.swift:76-83 | marks the first new column SQLite cannot add: every column before it can be added |
| TableInvariants.AlterEffect | Sources/TableManager.swift:70-87 | the registry grows by the new columns, in payload order, up to the first one that cannot be added; it succeeds exactly when all are added and otherwise throws that column's error |
| TableInvariants.CreatedRegistry | Sources/TableManager.swift:50-66 | a first store's registry has unique names, `id` first, and only non-id payload fields after it |
| TableInvariants.EvolvePreservesValid | Sources/TableManager.swift:92-96 | creating or extending the schema keeps the invariant and leaves the registry non-empty |
| TableInvariants.EvolveCovers | Sources/TableManager.swift:92-96 | after a successful schema change every non-id field has a registered column of its kind |
| TableInvariants.CountIdAtMostOne | Sources/TableManager.swift:113-114 | on a valid table an id addresses at most one row, and exactly one when a row has it |
| TableInvariants.StorePreservesValid | Sources/TableManager.swift:89-131 | every store, successful or not, keeps the invariant |
| TableInvariants.DeletePreservesValid | Sources/TableManager.swift:133-141 | deleting by id keeps the invariant |
| TableInvariants.DeleteManyPreservesValid | Sources/TableManager.swift:143-161 | deleting by filter keeps the invariant |
| TableProperties.StoreReachesWrite | Sources/TableManager.swift:89-96 | a store that writes has resolved and validated its document and evolved the schema to cover it, without touching rows |
| TableProperties.FirstStoreRegistry | Sources/TableManager.swift:50-116 | the first store registers `id` and then the non-id fields; without bool fields that is all of them, and the store succeeds unless SQLite fails or an `id` is given; with an integer `id` and no bool field the table is created with no rows and the store throws `objectNotExists(id)`; a bool field throws `UnhandledBool` |
| TableProperties.StoreExtendsRegistry | Sources/TableManager.swift:70-87 | a later store appends a prefix of the new columns to the old registry, and all of them when it succeeds |
| TableProperties.StoreSucceedsWhen | Sources/TableManager.swift:89-131 | on a created table, a document that resolves and validates is inserted exactly when SQLite adds every new column, and updates by integer `id` exactly when, in addition, the row exists; with every column added and no such row it throws `objectNotExists(id)` and leaves the rows unchanged |
| TableProperties.InsertAssignsNextId | Sources/TableManager.swift:124-129 | a document without `id` appends one row with the next id and its fields' values, and answers the document with that id |
| TableProperties.UpdateNeedsExistingRow | Sources/TableManager.swift:110-119 | for a store by integer `id` that reaches the update (it succeeds or throws `objectNotExists`; `StoreSucceedsWhen` says when), it succeeds exactly when that row exists and then answers the document unchanged; the row with that id gets the document's value in every column the document names and keeps its other cells, every other row is unchanged, and a missing row fails with `objectNotExists` and changes no row |
| TableProperties.NonIntIdMismatch | Sources/TableManager.swift:90-91 | once `id` is registered as int, a non-int `id` is rejected by the resolver and nothing changes; when the document resolves, the error is a type mismatch from validation |
| TableProperties.NonIntIdOnEmptyRegistry | Sources/TableManager.swift:92-96 | on an empty registry a non-int `id` is still rejected, but only after the table was created, with `invalidIdType` when creation succeeded |
| TableProperties.StoreThenGet | Sources/TableManager.swift:124-129 | the object inserted without `id` is read back by its new id, value for value and with the id added |
| TableProperties.StrandedStaysStranded | Sources/TableManager.swift:51-66 | a registry left without a created table makes every later store, get and delete fail |
| TableProperties.BoolFieldStrandsTable | Sources/TableManager.swift:50-66 | any first document with a non-id bool field throws `UnhandledBool` for the first such field, leaving `id` and the fields before it registered in front of a table never created |
| TableProperties.DoneFlagStrandsTable | Sources/TableManager.swift:53-56 | the document `{"done": true}` as a first store leaves only `id` registered and no table |
| TableProperties.GetReportsRegisteredKinds | Sources/TableManager.swift:170-180 | every key `get` reports is a registered column, and its value is the JSON form of a value of that column's kind |
| TableProperties.MatchesIsSelected | Sources/TableManager.swift:146-158 | a row matches the built conditions exactly when, for every filter entry, its cell equals the entry's text read as the column's kind or, when the text does not parse, whatever the nil comparison answers for that cell |
| TableProperties.ProjectInjective | Sources/TableManager.swift:170-180 | rows with different ids project to different objects, because `id` is always reported |
| TableProperties.ProjectedMembership | Sources/TableManager.swift:202-215 | the objects built for some rows of a table contain a row's projection exactly when that row is among them |
| TableProperties.GetManySelects | Sources/TableManager.swift:185-218 | with a valid filter the answer holds the projection of a row exactly when the row satisfies every entry, and nothing else |
| TableProperties.GetManyWithoutFilter | Sources/TableManager.swift:188 | without a filter every row is answered |
| TableProperties.DeleteExactlyOne | Sources/TableManager.swift:133-141 | on a valid created table, deleting succeeds exactly when the row exists and removes exactly that row |
| TableProperties.DeleteManyRemovesSelected | Sources/TableManager.swift:143-161 | with a valid filter, deleting never fails, even when nothing matches, and removes exactly the rows that satisfy every entry |
| TableProperties.ReopenKeepsSchema | Sources/TableManager.swift:37-48 | a table manager constructed again over the columns SQLite holds for a created table rebuilds the same names and kinds, so the same schema; over a stranded registry it rebuilds an empty one; either way the invariant holds |
| TableInvariants.AlterKeepsDeclared | Sources/TableManager.swift:76-85 | every column `alterTableIfNeeded` registers it has declared in SQLite first, so SQLite's columns keep matching the registry |
| TableProperties.ReopenedValid | Sources/TableManager.swift:41-47 | a registry rebuilt with the same names and kinds and `id` first keeps the invariant for the rows already stored |
| DatabaseManager.DatabasePath | Sources/DatabaseManager.swift:34 | the path is the working directory, a slash, the database name and `.db` |
| DatabaseManager.DatabasePathInjective | Sources/DatabaseManager.swift:34 | different database names give different path strings |
| DatabaseManager.GetConnection | Sources/DatabaseManager.swift:30-39 | a cached connection is returned without opening anything; otherwise the file at the database's path is opened and cached on success; no entry is removed or replaced |
| DatabaseManager.GetOrBuild | Sources/DatabaseManager.swift:17-28 | a cached manager is returned unchanged; a new one is built over the database's connection and cached under the key; a failure caches nothing under the key; the caches only grow |
| DatabaseManager.RepeatedGetTableManager | Sources/DatabaseManager.swift:19-22 | asking again for a table returns the same manager and opens and builds nothing |
| DatabaseManager.ConnectionOpenedOnce | Sources/DatabaseManager.swift:31-36 | after a database was opened it is never opened again |
| DatabaseManager.BuildFailureKeepsConnection | Sources/DatabaseManager.swift:23-25 | a failing table manager construction propagates its error and caches nothing for the table, but the connection opened for it stays cached |
| DatabaseManager.KeyCollisionServesWrongTable | Sources/DatabaseManager.swift:19 | the cache key conflates table `c` of database `a.b` with table `b.c` of database `a`, and serves the first's manager for the second |
| DatabaseManager.TableKeyInjective | Sources/DatabaseManager.swift:19 | when database names contain no dot, different pairs get different keys |
| DatabaseManager.PairCacheFaithful | Sources/DatabaseManager.swift:17-28 | with the (database, table) pair as key, every answer is the manager built for the requested table over the requested database's connection |
| DatabaseManager.PairKeyServesRightTable | Sources/DatabaseManager.swift:17-28 | with the pair as key, the two colliding requests get their own managers |
| StringExtension.ToLower | Sources/String+extension.swift:21 | lowercases an ASCII capital and leaves every other character alone |
| StringExtension.Lowercased | Sources/String+extension.swift:21 | lowercases character by character, so the result has no capitals |
| StringExtension.CamelCaseToSnakeCase | Sources/String+extension.swift:11-22 | the loop builds the snake-case form, which has no capitals and is as long as the input plus its capitals after the first character |
| StringExtension.SnakeCaseLength | Sources/String+extension.swift:12-20 | the output is longer than the input by the number of capitals after the first character |
| StringExtension.SnakeCasePlacesUnderscores | Sources/String+extension.swift:14-19 | each input character appears lowercased, in order, with an underscore right before every capital except a leading one |
| StringExtension.SnakeCaseNoUpper | Sources/String+extension.swift:12-21 | an input without capitals comes back unchanged |
| StringExtension.SnakeCaseEmpty | Sources/String+extension.swift:12-21 | the empty string maps to itself |
| StringExtension.SnakeCaseIdempotent | Sources/String+extension.swift:12-21 | converting twice is converting once |

## Left out

- Sources/main.swift: the HTTP routes, status codes and path and query decoding are I/O plumbing. The batch route (main.swift:56-67) only loops over `store`. The `update(json, filter:)` that main.swift:77 calls is not defined in TableManager.swift, so update-by-filter is not modelled.
- The `DispatchQueue` barrier around `getTableManger` (DatabaseManager.swift:15-18) only serialises access. The caches are modelled sequentially.
- SQLite itself, SQL text generation and Sources/ExpressionFactory.swift are replaced by the abstract row store.
  - Failures of INSERT, UPDATE, DELETE and SELECT on a created table are not modelled. Only schema statements can fail, as `SchemaFaults`, and so can any statement on a table that was never created.
  - Store with an empty setter list: a document with no field besides `id` (`{}` or `{"id": n}`) becomes `insert([])` or `update([])`. How SQLite.swift renders and SQLite answers those statements is not part of this model, so the model lets them succeed.
  - The row store answers rows in id order. SQLite promises no order without `ORDER BY`.
- The number classification through `NSNumber` and `CFNumberType` (JsonResolver.swift:110-127) is foreign code. JSON numbers arrive already classified as integral, floating or neither.
- Doubles are opaque (`Float64`). Filter parsing with `Int64(_)` and `Double(_)`, and SQLite's comparison with nil, are abstract parameters. No claim is made about which rows an unparseable filter selects.
- Int64 width: ids and integer payloads are unbounded integers. Overflow of the auto-increment id is not modelled.
- Dictionary order: a JSON object is its member list in the parser's iteration order, and a filter is an entry list. No order is claimed for `schema` output or filters beyond the registry's append order.
- Table names that differ only in case (`Users` and `users`) name one SQLite table, but `getTableManger` caches managers by the exact string (DatabaseManager.swift:19). The model gives every table manager its own backing table, so the invariant that SQLite's columns equal the registry assumes no other manager shares the table: a second manager's `create(ifNotExists: true)` would succeed without declaring anything.
- File-system aliasing: two different path strings can name one file, for example on a case-insensitive file system or through `..` in a name. The model compares databases by path string only.
- Concrete connections and table managers: `DatabaseManager` takes the opener and the constructor as parameters. `Connection(path)` and `TableManager.init` are passed in rather than called.
- Sources/Logger.swift, Sources/Date+extension.swift and Sources/Optional+extension.swift only log and format.
- Package.swift is build configuration.
- Unicode case mapping in `camelCaseToSnakeCase`: only ASCII capitals `A`–`Z` count as uppercase.

## Findings

| source | as written | input that shows it | evidently intended | confidence | as-written member | corrected member |
|---|---|---|---|---|---|---|
| Sources/DatabaseManager.swift:19 | table managers are cached under the string `db + "." + tableName` | database `a.b` with table `c`, then database `a` with table `b.c`: both get the key `a.b.c`, and the second request is answered with the manager of table `c` over the file `a.b.db`; the file `a.db` is never opened | one table manager per (database, table) pair | not executed; medium: dots are allowed in both path segments the server decodes | DatabaseManager.KeyCollisionServesWrongTable | DatabaseManager.PairCacheFaithful |

=== FILE: database_manager.dfy ===
/** The lookup-or-create caches in front of the table managers: one
    connection per database name and one table manager per table key.
    Connections and table managers are opaque; opening a database file and
    constructing a table manager are parameters that may fail. */
module DatabaseManager {
  import opened Wrappers

  /** The two caches, with table managers keyed by `K`. */
  datatype Manager<K(==), C, T> = Manager(connections: map<string, C>, tableManagers: map<K, T>)

  /** Every entry of `m` is still in `m'`, unchanged. */
  ghost predicate Grows<K, C, T>(m: Manager<K, C, T>, m': Manager<K, C, T>) {
    && (forall db :: db in m.connections ==> db in m'.connections && m'.connections[db] == m.connections[db])
    && (forall key :: key in m.tableManagers ==> key in m'.tableManagers && m'.tableManagers[key] == m.tableManagers[key])
  }

  /** The file a database name is opened from, under the working directory. */
  function DatabasePath(cwd: string, db: string): (p: string)
    ensures |p| == |cwd| + |db| + 4
    ensures p[..|cwd|] == cwd && p[|cwd|] == '/' && p[|cwd| + 1..|cwd| + 1 + |db|] == db
    ensures p[|cwd| + 1 + |db|..] == ".db"
  {
    cwd + "/" + db + ".db"
  }

  /** Under one working directory, different database names give different
      path strings. */
  lemma DatabasePathInjective(cwd: string, a: string, b: string)
    requires DatabasePath(cwd, a) == DatabasePath(cwd, b)
    ensures a == b
  {
    assert |a| == |b|;
    assert a == DatabasePath(cwd, a)[|cwd| + 1..|cwd| + 1 + |a|];
  }

  /** `getConnection`: the cached connection for the database if there is
      one (nothing is opened then); otherwise the file is opened and, if
      that succeeds, the connection is cached. */
  function GetConnection<K(==), C, T, E>(m: Manager<K, C, T>, cwd: string, db: string, open: string -> Result<C, E>)
    : (r: (Manager<K, C, T>, Result<C, E>))
    ensures db in m.connections ==> r == (m, Success(m.connections[db]))
    ensures db !in m.connections ==> r.1 == open(DatabasePath(cwd, db))
    ensures Grows(m, r.0) && r.0.tableManagers == m.tableManagers
    ensures r.1.Success? ==> db in r.0.connections && r.0.connections[db] == r.1.value
    ensures r.0.connections.Keys == m.connections.Keys + (if r.1.Success? then {db} else {})
  {
    if db in m.connections then (m, Success(m.connections[db]))
    else
      match open(DatabasePath(cwd, db))
      case Failure(e) => (m, Failure(e))
      case Success(c) => (m.(connections := m.connections[db := c]), Success(c))
  }

  /** The body of `getTableManger` for a given cache key: the cached manager
      if there is one; otherwise the database's connection is obtained and
      the manager constructed over it and cached. A failed construction
      caches nothing for the key, but the connection obtained stays cached. */
  function GetOrBuild<K(==), C, T, E>(m: Manager<K, C, T>, key: K, cwd: string, db: string, tableName: string,
                                      open: string -> Result<C, E>, build: (C, string) -> Result<T, E>)
    : (r: (Manager<K, C, T>, Result<T, E>))
    ensures key in m.tableManagers ==> r == (m, Success(m.tableManagers[key]))
    ensures Grows(m, r.0)
    ensures r.1.Success? ==> key in r.0.tableManagers && r.0.tableManagers[key] == r.1.value
    ensures r.1.Failure? ==> key !in r.0.tableManagers
    ensures r.0.tableManagers.Keys == m.tableManagers.Keys + (if r.1.Success? then {key} else {})
    ensures key !in m.tableManagers && r.1.Success? ==>
              db in r.0.connections && build(r.0.connections[db], tableName) == r.1
  {
    if key in m.tableManagers then (m, Success(m.tableManagers[key]))
    else
      var (m1, conn) := GetConnection(m, cwd, db, open);
      match conn
      case Failure(e) => (m1, Failure(e))
      case Success(c) =>
        match build(c, tableName)
        case Failure(e) => (m1, Failure(e))
        case Success(tm) => (m1.(tableManagers := m1.tableManagers[key := tm]), Success(tm))
  }

  /** The key `getTableManger` caches a table manager under. */
  function TableKey(db: string, tableName: string): string {
    db + "." + tableName
  }

  /** `getTableManger` as written: managers cached by the joined string key. */
  function GetTableManager<C, T, E>(m: Manager<string, C, T>, cwd: string, db: string, tableName: string,
                                    open: string -> Result<C, E>, build: (C, string) -> Result<T, E>)
    : (r: (Manager<string, C, T>, Result<T, E>))
    ensures Grows(m, r.0)
    ensures r.1.Success? ==> TableKey(db, tableName) in r.0.tableManagers
  {
    GetOrBuild(m, TableKey(db, tableName), cwd, db, tableName, open, build)
  }

  /** A repeated request for a table returns the cached manager and neither
      opens nor constructs anything, whatever the opener and constructor. */
  lemma RepeatedGetTableManager<C, T, E>(m: Manager<string, C, T>, cwd: string, db: string, tableName: string,
                                         open: string -> Result<C, E>, build: (C, string) -> Result<T, E>,
                                         open2: string -> Result<C, E>, build2: (C, string) -> Result<T, E>)
    requires GetTableManager(m, cwd, db, tableName, open, build).1.Success?
    ensures var (m1, r1) := GetTableManager(m, cwd, db, tableName, open, build);
            GetTableManager(m1, cwd, db, tableName, open2, build2) == (m1, r1)
  {
  }

  /** A database's file is opened at most once: after a successful open,
      later requests get the cached connection without opening again. */
  lemma ConnectionOpenedOnce<K, C, T, E>(m: Manager<K, C, T>, cwd: string, db: string,
                                             open: string -> Result<C, E>, open2: string -> Result<C, E>)
    requires GetConnection(m, cwd, db, open).1.Success?
    ensures var (m1, c) := GetConnection(m, cwd, db, open);
            GetConnection(m1, cwd, db, open2) == (m1, c)
  {
  }

  /** When constructing the manager throws, the error propagates, nothing is
      cached for the table, and the newly opened connection stays cached. */
  lemma BuildFailureKeepsConnection<C, T, E>(m: Manager<string, C, T>, cwd: string, db: string, tableName: string,
                                             open: string -> Result<C, E>, build: (C, string) -> Result<T, E>)
    requires TableKey(db, tableName) !in m.tableManagers && db !in m.connections
    requires open(DatabasePath(cwd, db)).Success?
    requires build(open(DatabasePath(cwd, db)).value, tableName).Failure?
    ensures var (m1, r) := GetTableManager(m, cwd, db, tableName, open, build);
            && r == Failure(build(open(DatabasePath(cwd, db)).value, tableName).error)
            && m1.tableManagers == m.tableManagers
            && m1.connections == m.connections[db := open(DatabasePath(cwd, db)).value]
  {
  }

  // ---------------------------------------------------------------------
  // The joined key collides
  // ---------------------------------------------------------------------

  /** Two different (database, table) pairs share a key. */
  lemma TableKeyCollision()
    ensures TableKey("a.b", "c") == TableKey("a", "b.c")
  {
  }

  /** Connections identified by their file, managers by their connection and
      table: the least a real connection and manager carry. */
  function OpenFile(path: string): Result<string, ()> {
    Success(path)
  }

  function BuildFor(connection: string, tableName: string): Result<(string, string), ()> {
    Success((connection, tableName))
  }

  /** After table `c` of database `a.b` has been served, a request for table
      `b.c` of database `a` is answered with the cached manager of the other
      table, over the other database's file, which was never opened for it. */
  lemma KeyCollisionServesWrongTable()
    ensures var empty := Manager(map[], map[]);
            var (m1, _) := GetTableManager(empty, "/srv", "a.b", "c", OpenFile, BuildFor);
            var (m2, r) := GetTableManager(m1, "/srv", "a", "b.c", OpenFile, BuildFor);
            && r == Success(("/srv/a.b.db", "c"))
            && r != BuildFor(DatabasePath("/srv", "a"), "b.c")
            && "a" !in m2.connections
  {
    TableKeyCollision();
    assert DatabasePath("/srv", "a.b") == "/srv/a.b.db";
    assert DatabasePath("/srv", "a") == "/srv/a.db";
    assert "/srv/a.b.db" != "/srv/a.db" by {
      assert "/srv/a.b.db"[7] != "/srv/a.db"[7];
    }
  }

  /** Database names without a dot make the joined key unambiguous. */
  lemma TableKeyInjective(a: string, b: string, c: string, d: string)
    requires '.' !in a && '.' !in c
    requires TableKey(a, b) == TableKey(c, d)
    ensures a == c && b == d
  {
    var k := TableKey(a, b);
    assert forall j :: 0 <= j < |a| ==> k[j] == a[j] && a[j] in a;
    assert forall j :: 0 <= j < |c| ==> k[j] == c[j] && c[j] in c;
    assert k[|a|] == '.' && k[|c|] == '.';
    assert |a| == |c|;
    assert a == k[..|a|] && c == k[..|c|];
    assert b == k[|a| + 1..] && d == k[|c| + 1..];
  }

  // ---------------------------------------------------------------------
  // Keyed by the pair
  // ---------------------------------------------------------------------

  /** `getTableManger` with the cache keyed by the (database, table) pair. */
  function GetTableManagerByPair<C, T, E>(m: Manager<(string, string), C, T>, cwd: string, db: string, tableName: string,
                                          open: string -> Result<C, E>, build: (C, string) -> Result<T, E>)
    : (r: (Manager<(string, string), C, T>, Result<T, E>))
    ensures Grows(m, r.0)
    ensures r.1.Success? ==> (db, tableName) in r.0.tableManagers
  {
    GetOrBuild(m, (db, tableName), cwd, db, tableName, open, build)
  }

  /** Every cached manager is the one constructed for its own table over its
      own database's cached connection. */
  ghost predicate Faithful<C, T, E>(m: Manager<(string, string), C, T>, build: (C, string) -> Result<T, E>) {
    forall key :: key in m.tableManagers ==>
      key.0 in m.connections && build(m.connections[key.0], key.1) == Success(m.tableManagers[key])
  }

  /** With the pair as key the cache stays faithful, so every request is
      answered with the manager of the requested table over the requested
      database's connection. */
  lemma PairCacheFaithful<C, T, E>(m: Manager<(string, string), C, T>, cwd: string, db: string, tableName: string,
                                   open: string -> Result<C, E>, build: (C, string) -> Result<T, E>)
    requires Faithful(m, build)
    ensures var (m1, r) := GetTableManagerByPair(m, cwd, db, tableName, open, build);
            && Faithful(m1, build)
            && (r.Success? ==> db in m1.connections && build(m1.connections[db], tableName) == r)
  {
    var (m1, r) := GetTableManagerByPair(m, cwd, db, tableName, open, build);
    forall key | key in m1.tableManagers
      ensures key.0 in m1.connections && build(m1.connections[key.0], key.1) == Success(m1.tableManagers[key])
    {
      if key != (db, tableName) {
        assert key in m.tableManagers;
      }
    }
  }

  /** The two requests that collide above get different managers when the
      cache is keyed by the pair. */
  lemma PairKeyServesRightTable()
    ensures var empty := Manager(map[], map[]);
            var (m1, _) := GetTableManagerByPair(empty, "/srv", "a.b", "c", OpenFile, BuildFor);
            var (m2, r) := GetTableManagerByPair(m1, "/srv", "a", "b.c", OpenFile, BuildFor);
            r == Success(("/srv/a.db", "b.c"))
  {
    assert DatabasePath("/srv", "a") == "/srv/a.db";
    assert ("a", "b.c") != ("a.b", "c");
  }
}

=== FILE: json_model.dfy ===
/** The parsed JSON values the store receives and returns. Numbers arrive
    already classified by the number parser as integral or floating (or as
    neither); objects are their member lists in the parser's iteration order. */
module JsonModel {
  import opened Wrappers

  /** A 64-bit floating-point number, kept opaque: the model only copies it
      and compares it for identity. */
  datatype Float64 = Float64(pattern: nat)

  /** How the number parser classified a JSON number. */
  datatype Number =
    | Integral(i: int)
    | Floating(f: Float64)
    | Unclassified

  datatype Json =
    | JNull
    | JBool(b: bool)
    | JNumber(n: Number)
    | JString(s: string)
    | JArray(items: seq<Json>)
    | JObject(members: seq<Member>)

  datatype Member = Member(key: string, value: Json)

  /** An object's members as a dictionary has them: no key twice. */
  predicate DistinctKeys(ms: seq<Member>) {
    forall i, j :: 0 <= i < j < |ms| ==> ms[i].key != ms[j].key
  }

  /** The value stored under `key`, if any. */
  function Lookup(ms: seq<Member>, key: string): (r: Option<Json>)
    ensures r.None? <==> forall i :: 0 <= i < |ms| ==> ms[i].key != key
    ensures r.Some? ==> exists i :: 0 <= i < |ms| && ms[i].key == key && ms[i].value == r.value
  {
    if |ms| == 0 then None
    else if ms[0].key == key then Some(ms[0].value)
    else Lookup(ms[1..], key)
  }

  /** The members of an object; every other value reads as the empty dictionary. */
  function DictionaryValue(j: Json): seq<Member> {
    if j.JObject? then j.members else []
  }

  /** The name the parser gives to a value's JSON kind. */
  function KindName(j: Json): string {
    match j
    case JNull => "null"
    case JBool(_) => "bool"
    case JNumber(_) => "number"
    case JString(_) => "string"
    case JArray(_) => "array"
    case JObject(_) => "dictionary"
  }
}

=== FILE: json_resolver.dfy ===
/** Type classification and validation: the closed set of value kinds a
    field can hold, their textual tags, the conversion of a JSON object into
    typed fields, and the check of incoming fields against registered columns. */
module JsonResolver {
  import opened Wrappers
  import opened JsonModel

  /** The four kinds of value a field can hold; each carries its payload. */
  datatype ValueType =
    | String(s: string)
    | Int(i: int)
    | Double(d: Float64)
    | Bool(b: bool)
  {
    /** Same variant, whatever the payloads. */
    predicate TypeIsEqual(other: ValueType) {
      match (this, other)
      case (String(_), String(_)) => true
      case (Int(_), Int(_)) => true
      case (Double(_), Double(_)) => true
      case (Bool(_), Bool(_)) => true
      case _ => false
    }

    /** The textual tag of the variant. */
    function Readable(): string {
      match this
      case String(_) => "string"
      case Int(_) => "int"
      case Double(_) => "double"
      case Bool(_) => "bool"
    }
  }

  const ReadableTags: set<string> := {"string", "int", "double", "bool"}

  /** The inverse of `Readable`: a default-valued variant for each known tag,
      nothing for any other string. */
  function Make(readable: string): (r: Option<ValueType>)
    ensures r.Some? <==> readable in ReadableTags
    ensures r.Some? ==> r.value.Readable() == readable
  {
    match readable
    case "string" => Some(String(""))
    case "int" => Some(Int(0))
    case "double" => Some(Double(Float64(0)))
    case "bool" => Some(Bool(false))
    case _ => None
  }

  /** Two values have the same variant exactly when their tags agree: the
      four tags are pairwise distinct. */
  lemma TypeIsEqualIffSameTag(a: ValueType, b: ValueType)
    ensures a.TypeIsEqual(b) <==> a.Readable() == b.Readable()
  {
    assert "string"[0] == 's' && "int"[0] == 'i' && "double"[0] == 'd' && "bool"[0] == 'b';
  }

  /** `TypeIsEqual` is an equivalence relation. */
  lemma TypeIsEqualIsEquivalence(a: ValueType, b: ValueType, c: ValueType)
    ensures a.TypeIsEqual(a)
    ensures a.TypeIsEqual(b) ==> b.TypeIsEqual(a)
    ensures a.TypeIsEqual(b) && b.TypeIsEqual(c) ==> a.TypeIsEqual(c)
  {
  }

  /** Reading a variant's tag back gives a value of the same variant. */
  lemma MakeReadableRoundTrip(t: ValueType)
    ensures Make(t.Readable()).Some?
    ensures Make(t.Readable()).value.TypeIsEqual(t)
  {
  }

  /** A named, typed field (a resolved JSON member or a registered column). */
  datatype DatabaseValue = DatabaseValue(name: string, valueType: ValueType)

  datatype JsonResolverError =
    | TypeNotSupported(key: string, kind: string)
    | TypeMismatch(key: string, registered: string, received: string)

  predicate DistinctNames(vs: seq<DatabaseValue>) {
    forall i, j :: 0 <= i < j < |vs| ==> vs[i].name != vs[j].name
  }

  /** The first entry called `name` (Swift's `first { $0.name == name }`). */
  function FirstNamed(vs: seq<DatabaseValue>, name: string): (r: Option<DatabaseValue>)
    ensures r.None? <==> forall i :: 0 <= i < |vs| ==> vs[i].name != name
    ensures r.Some? ==> exists i :: 0 <= i < |vs| && vs[i] == r.value && r.value.name == name
                          && forall j :: 0 <= j < i ==> vs[j].name != name
  {
    if |vs| == 0 then None
    else if vs[0].name == name then Some(vs[0])
    else FirstNamed(vs[1..], name)
  }

  /** How a stored value is written back into JSON. */
  function ToJson(v: ValueType): Json {
    match v
    case String(s) => JString(s)
    case Int(i) => JNumber(Integral(i))
    case Double(d) => JNumber(Floating(d))
    case Bool(b) => JBool(b)
  }

  /** The kind of a single JSON value: booleans, strings and classified
      numbers are storable and keep their payload; everything else is not. */
  function Classify(j: Json): (r: Option<ValueType>)
    ensures r.None? <==> j.JNull? || j.JArray? || j.JObject? || j == JNumber(Unclassified)
    ensures r.Some? ==> ToJson(r.value) == j
  {
    match j
    case JNumber(Integral(i)) => Some(Int(i))
    case JNumber(Floating(d)) => Some(Double(d))
    case JBool(b) => Some(Bool(b))
    case JString(s) => Some(String(s))
    case _ => None
  }

  /** Writing a value to JSON and classifying it again gives it back. */
  lemma ClassifyToJson(v: ValueType)
    ensures Classify(ToJson(v)) == Some(v)
  {
  }

  /** `JsonResolver.resolve`, applied to the object's dictionary value
      (`DictionaryValue`): one typed field per member, in iteration order, or
      the `typeNotSupported` error of the first unstorable member; never a
      partial list. */
  function Resolve(ms: seq<Member>): (r: Result<seq<DatabaseValue>, JsonResolverError>)
    ensures r.Success? <==> forall i :: 0 <= i < |ms| ==> Classify(ms[i].value).Some?
    ensures r.Success? ==> |r.value| == |ms|
    ensures r.Success? ==> forall i :: 0 <= i < |ms| ==>
              r.value[i].name == ms[i].key && Some(r.value[i].valueType) == Classify(ms[i].value)
    ensures r.Failure? ==> exists i :: (0 <= i < |ms| && Classify(ms[i].value).None?
              && r.error == TypeNotSupported(ms[i].key, KindName(ms[i].value))
              && forall j :: 0 <= j < i ==> Classify(ms[j].value).Some?)
  {
    if |ms| == 0 then Success([])
    else
      match Classify(ms[0].value)
      case None => Failure(TypeNotSupported(ms[0].key, KindName(ms[0].value)))
      case Some(t) =>
        match Resolve(ms[1..])
        case Failure(e) => Failure(e)
        case Success(rest) => Success([DatabaseValue(ms[0].key, t)] + rest)
  }

  /** Resolving the members of a dictionary yields fields with distinct names. */
  lemma ResolvedNamesDistinct(ms: seq<Member>)
    requires DistinctKeys(ms)
    requires Resolve(ms).Success?
    ensures DistinctNames(Resolve(ms).value)
  {
  }

  /** An incoming field agrees with the registry: either no registered
      column has its name, or the first one that does has its variant. */
  predicate Conforms(v: DatabaseValue, registered: seq<DatabaseValue>) {
    match FirstNamed(registered, v.name)
    case None => true
    case Some(existing) => existing.valueType.TypeIsEqual(v.valueType)
  }

  /** `JsonResolver.validateTypes`: fails with `typeMismatch` at the first
      incoming field that disagrees with its registered column, and passes
      exactly when every incoming field conforms. */
  function ValidateTypes(incoming: seq<DatabaseValue>, registered: seq<DatabaseValue>): (r: Outcome<JsonResolverError>)
    ensures r.Pass? <==> forall i :: 0 <= i < |incoming| ==> Conforms(incoming[i], registered)
    ensures r.Fail? ==> exists i :: (0 <= i < |incoming| && !Conforms(incoming[i], registered)
              && (forall j :: 0 <= j < i ==> Conforms(incoming[j], registered))
              && r.error == TypeMismatch(incoming[i].name,
                                         FirstNamed(registered, incoming[i].name).value.valueType.Readable(),
                                         incoming[i].valueType.Readable()))
  {
    if |incoming| == 0 then Pass
    else if !Conforms(incoming[0], registered) then
      var existing := FirstNamed(registered, incoming[0].name).value;
      Fail(TypeMismatch(incoming[0].name, existing.valueType.Readable(), incoming[0].valueType.Readable()))
    else
      ValidateTypes(incoming[1..], registered)
  }

  /** Fields that match no registered column are never checked, so an empty
      registry accepts everything. */
  lemma ValidateIgnoresUnregistered(incoming: seq<DatabaseValue>, registered: seq<DatabaseValue>)
    requires forall i :: 0 <= i < |incoming| ==> FirstNamed(registered, incoming[i].name).None?
    ensures ValidateTypes(incoming, registered) == Pass
  {
  }

  lemma ValidateEmptyRegistry(incoming: seq<DatabaseValue>)
    ensures ValidateTypes(incoming, []) == Pass
  {
  }
}

=== FILE: sqlite_extension.dfy ===
/** The mapping from a column's SQLite type affinity to a value kind, used
    when a table's column registry is rebuilt from the backing table. */
module SQLiteExtension {
  import opened Wrappers
  import opened JsonModel
  import opened JsonResolver

  /** SQLite's column type affinities. */
  datatype Affinity = INTEGER | NUMERIC | REAL | TEXT | BLOB

  /** A column as SQLite reports it for an existing table. */
  datatype ColumnDefinition = ColumnDefinition(name: string, affinity: Affinity)

  /** `Affinity.valueType`: integer-like affinities read as `int`, REAL as
      `double`, TEXT as `string`, anything else as unsupported. A `bool`
      column can never come out of it. */
  function AffinityValueType(a: Affinity): (r: Option<ValueType>)
    ensures r.Some? ==> !r.value.Bool?
    ensures r.None? <==> a == BLOB
    ensures r.Some? && r.value.Int? <==> a == INTEGER || a == NUMERIC
    ensures r.Some? && r.value.Double? <==> a == REAL
    ensures r.Some? && r.value.String? <==> a == TEXT
  {
    match a
    case INTEGER => Some(Int(0))
    case NUMERIC => Some(Int(0))
    case REAL => Some(Double(Float64(0)))
    case TEXT => Some(String(""))
    case _ => None
  }

  /** The affinity of the column the store declares for a value of kind `t`
      (an optional Int64, String or Double column); none for `bool`, which
      the store has no column kind for. */
  function DeclaredAffinity(t: ValueType): (r: Option<Affinity>)
    ensures r.None? <==> t.Bool?
  {
    match t
    case Int(_) => Some(INTEGER)
    case Double(_) => Some(REAL)
    case String(_) => Some(TEXT)
    case Bool(_) => None
  }

  /** A column the store declared reads back, through its affinity, as a
      value of the same kind. */
  lemma DeclaredAffinityRoundTrip(t: ValueType)
    requires !t.Bool?
    ensures AffinityValueType(DeclaredAffinity(t).value).Some?
    ensures AffinityValueType(DeclaredAffinity(t).value).value.TypeIsEqual(t)
  {
  }
}

=== FILE: string_extension.dfy ===
/** `camelCaseToSnakeCase`, over ASCII letters: an underscore goes before
    every uppercase letter but a leading one, then everything is lowercased. */
module StringExtension {

  predicate IsUpper(c: char) {
    'A' <= c <= 'Z'
  }

  function ToLower(c: char): (d: char)
    ensures !IsUpper(d)
    ensures IsUpper(c) ==> d as int == c as int + 32 && 'a' <= d <= 'z'
    ensures !IsUpper(c) ==> d == c
  {
    if IsUpper(c) then (c as int + 32) as char else c
  }

  predicate NoUpper(s: string) {
    forall i :: 0 <= i < |s| ==> !IsUpper(s[i])
  }

  /** `lowercased()`, letter by letter. */
  function Lowercased(s: string): (r: string)
    ensures |r| == |s|
    ensures forall i :: 0 <= i < |s| ==> r[i] == ToLower(s[i])
    ensures NoUpper(r)
  {
    seq(|s|, i requires 0 <= i < |s| => ToLower(s[i]))
  }

  /** The number of uppercase letters after the first character. */
  function UpperAfterStart(s: string): nat {
    if |s| <= 1 then 0
    else UpperAfterStart(s[..|s| - 1]) + (if IsUpper(s[|s| - 1]) then 1 else 0)
  }

  /** The string the loop builds before lowercasing: each character in turn,
      preceded by an underscore when it is uppercase and something has
      already been appended. */
  function Underscored(s: string): string {
    if |s| == 0 then ""
    else
      var p := s[..|s| - 1];
      var c := s[|s| - 1];
      Underscored(p) + (if IsUpper(c) && |p| > 0 then "_" else "") + [c]
  }

  function SnakeCase(s: string): string {
    Lowercased(Underscored(s))
  }

  /** Where the loop puts character `i` of the input. */
  function Position(s: string, i: nat): nat
    requires i < |s|
  {
    i + UpperAfterStart(s[..i + 1])
  }

  /** The loop of `camelCaseToSnakeCase`, then `lowercased()`. */
  method CamelCaseToSnakeCase(s: string) returns (r: string)
    ensures r == SnakeCase(s)
    ensures NoUpper(r)
    ensures |r| == |s| + UpperAfterStart(s)
  {
    var newString := "";
    var i := 0;
    while i < |s|
      invariant 0 <= i <= |s|
      invariant newString == Underscored(s[..i])
      invariant |newString| > 0 <==> i > 0
    {
      var character := s[i];
      if IsUpper(character) {
        if |newString| > 0 {
          newString := newString + "_";
        }
      }
      newString := newString + [character];
      assert s[..i + 1][..i] == s[..i];
      i := i + 1;
    }
    assert s[..i] == s;
    r := Lowercased(newString);
    SnakeCaseLength(s);
  }

  lemma {:induction false} UnderscoredLength(s: string)
    ensures |Underscored(s)| == |s| + UpperAfterStart(s)
    decreases |s|
  {
    if |s| > 0 {
      UnderscoredLength(s[..|s| - 1]);
    }
  }

  /** One underscore is added per uppercase letter after the first character. */
  lemma SnakeCaseLength(s: string)
    ensures |SnakeCase(s)| == |s| + UpperAfterStart(s)
  {
    UnderscoredLength(s);
  }

  /** Each input character appears lowercased at its position, right after
      an underscore when it is an uppercase letter other than the first
      character; the positions increase, so with `SnakeCaseLength` the
      output holds these characters and the underscores and nothing else. */
  lemma SnakeCasePlacesUnderscores(s: string)
    ensures forall i :: 0 <= i < |s| ==>
              Position(s, i) < |SnakeCase(s)| && SnakeCase(s)[Position(s, i)] == ToLower(s[i])
    ensures forall i :: 0 < i < |s| && IsUpper(s[i]) ==>
              0 < Position(s, i) < |SnakeCase(s)| && SnakeCase(s)[Position(s, i) - 1] == '_'
    ensures forall i :: 0 < i < |s| ==> Position(s, i - 1) < Position(s, i)
  {
    UnderscoredKeeps(s);
    UnderscoredMarks(s);
    PositionIncreasing(s);
  }

  lemma PositionPrefix(s: string, i: nat)
    requires i + 1 < |s|
    ensures Position(s, i) == Position(s[..|s| - 1], i)
  {
    assert s[..i + 1] == s[..|s| - 1][..i + 1];
  }

  lemma PositionLast(s: string)
    requires |s| > 0
    ensures Position(s, |s| - 1) == |s| - 1 + UpperAfterStart(s)
  {
    assert s[..|s|] == s;
  }

  lemma PositionIncreasing(s: string)
    ensures forall i :: 0 < i < |s| ==> Position(s, i - 1) < Position(s, i)
  {
    forall i | 0 < i < |s|
      ensures Position(s, i - 1) < Position(s, i)
    {
      assert s[..i + 1][..i] == s[..i];
    }
  }

  lemma {:induction false} UnderscoredKeeps(s: string)
    ensures forall i :: 0 <= i < |s| ==>
              Position(s, i) < |Underscored(s)| && Underscored(s)[Position(s, i)] == s[i]
    decreases |s|
  {
    if |s| > 0 {
      var p := s[..|s| - 1];
      UnderscoredKeeps(p);
      UnderscoredLength(p);
      UnderscoredLength(s);
      forall i | 0 <= i < |s|
        ensures Position(s, i) < |Underscored(s)| && Underscored(s)[Position(s, i)] == s[i]
      {
        if i < |p| {
          PositionPrefix(s, i);
        } else {
          PositionLast(s);
          if |p| > 0 {
            assert s[..|s| - 1] == p;
          }
        }
      }
    }
  }

  lemma {:induction false} UnderscoredMarks(s: string)
    ensures forall i :: 0 < i < |s| && IsUpper(s[i]) ==>
              0 < Position(s, i) < |Underscored(s)| && Underscored(s)[Position(s, i) - 1] == '_'
    decreases |s|
  {
    if |s| > 0 {
      var p := s[..|s| - 1];
      UnderscoredMarks(p);
      UnderscoredLength(p);
      UnderscoredLength(s);
      forall i | 0 < i < |s| && IsUpper(s[i])
        ensures 0 < Position(s, i) < |Underscored(s)| && Underscored(s)[Position(s, i) - 1] == '_'
      {
        if i < |p| {
          PositionPrefix(s, i);
        } else {
          PositionLast(s);
          assert s[..|s| - 1] == p;
        }
      }
    }
  }

  /** A string with no uppercase letters comes back unchanged. */
  lemma {:induction false} UnderscoredNoUpper(s: string)
    requires NoUpper(s)
    ensures Underscored(s) == s
    decreases |s|
  {
    if |s| > 0 {
      UnderscoredNoUpper(s[..|s| - 1]);
      assert s[..|s| - 1] + [s[|s| - 1]] == s;
    }
  }

  lemma SnakeCaseNoUpper(s: string)
    requires NoUpper(s)
    ensures SnakeCase(s) == s
  {
    UnderscoredNoUpper(s);
  }

  /** The empty string maps to itself. */
  lemma SnakeCaseEmpty()
    ensures SnakeCase("") == ""
  {
  }

  /** Converting twice is converting once. */
  lemma SnakeCaseIdempotent(s: string)
    ensures SnakeCase(SnakeCase(s)) == SnakeCase(s)
  {
    SnakeCaseNoUpper(SnakeCase(s));
  }
}

=== FILE: table_invariants.dfy ===
/** The invariant every table the store builds keeps, and the facts about
    registries and schema evolution the proofs of the store's properties
    rest on. */
module TableInvariants {
  import opened Wrappers
  import opened JsonModel
  import opened JsonResolver
  import opened TableManager

  predicate IdsAscending(rows: seq<Row>) {
    forall i, j :: 0 <= i < j < |rows| ==> rows[i].id < rows[j].id
  }

  /** Every non-NULL cell of a row sits in a registered non-id column and has
      that column's kind. */
  predicate CellsConform(row: Row, cols: seq<DatabaseValue>) {
    forall k :: k in row.cells ==>
      k != "id" && Registered(cols, k) && FirstNamed(cols, k).value.valueType.TypeIsEqual(row.cells[k])
  }

  /** The state invariant: column names are unique and `id` comes first;
      SQLite holds columns and rows only once the table is created, and then
      exactly the registered columns, in order; ids are auto-assigned below
      `nextId`, ascending; cells agree with the registry. */
  predicate Valid(t: Table) {
    && DistinctNames(t.existingColumns)
    && (t.TableExists() ==> t.existingColumns[0] == IdColumn)
    && (t.backing.created ==> t.TableExists() && t.backing.columns == Definitions(t.existingColumns))
    && (!t.backing.created ==> t.backing.rows == [] && t.backing.columns == [])
    && 1 <= t.backing.nextId
    && IdsAscending(t.backing.rows)
    && (forall x :: x in t.backing.rows ==> 1 <= x.id < t.backing.nextId && CellsConform(x, t.existingColumns))
  }

  /** A fresh table manager on a database without the table is valid. */
  lemma EmptyTableValid()
    ensures Valid(EmptyTable)
  {
  }

  // ---------------------------------------------------------------------
  // Registries
  // ---------------------------------------------------------------------

  /** Looking a name up in a concatenation finds it in the first part if it
      is there. */
  lemma {:induction false} FirstNamedAppend(a: seq<DatabaseValue>, b: seq<DatabaseValue>, name: string)
    ensures FirstNamed(a + b, name) == if Registered(a, name) then FirstNamed(a, name) else FirstNamed(b, name)
  {
    if |a| == 0 {
      assert a + b == b;
    } else {
      assert (a + b)[0] == a[0];
      assert (a + b)[1..] == a[1..] + b;
      if a[0].name != name {
        FirstNamedAppend(a[1..], b, name);
      }
    }
  }

  /** In a registry with unique names, each entry is found by its name. */
  lemma FirstNamedOfDistinct(s: seq<DatabaseValue>, i: int)
    requires DistinctNames(s) && 0 <= i < |s|
    ensures FirstNamed(s, s[i].name) == Some(s[i])
  {
    var j :| 0 <= j < |s| && s[j] == FirstNamed(s, s[i].name).value && s[j].name == s[i].name
              && forall m :: 0 <= m < j ==> s[m].name != s[i].name;
  }

  /** A table that exists has its `id` column registered. */
  lemma IdRegistered(t: Table)
    requires Valid(t) && t.TableExists()
    ensures FirstNamed(t.existingColumns, "id") == Some(IdColumn)
  {
  }

  /** Cells that agree with a registry agree with any extension of it. */
  lemma CellsConformExtend(row: Row, a: seq<DatabaseValue>, b: seq<DatabaseValue>)
    requires CellsConform(row, a)
    requires a <= b
    ensures CellsConform(row, b)
  {
    forall k | k in row.cells
      ensures Registered(b, k) && FirstNamed(b, k).value.valueType.TypeIsEqual(row.cells[k])
    {
      assert b == a + b[|a|..];
      FirstNamedAppend(a, b[|a|..], k);
    }
  }

  /** The fields a schema change adds have unique names when the payload's do. */
  lemma {:induction false} NewColumnsDistinct(registered: seq<DatabaseValue>, values: seq<DatabaseValue>)
    requires DistinctNames(values)
    ensures DistinctNames(NewColumns(registered, values))
  {
    if |values| > 0 {
      var rest := values[1..];
      assert DistinctNames(rest);
      NewColumnsDistinct(registered, rest);
      var tail := NewColumns(registered, rest);
      if !(values[0].name == "id" || Registered(registered, values[0].name)) {
        assert NewColumns(registered, values) == [values[0]] + tail;
        forall j | 0 <= j < |tail|
          ensures tail[j].name != values[0].name
        {
          assert tail[j] in rest;
          var m :| 0 <= m < |rest| && rest[m] == tail[j];
          assert values[m + 1] == tail[j];
        }
      } else {
        assert NewColumns(registered, values) == tail;
      }
    }
  }

  /** Registering a field no later field shares a name with does not change
      which of the later fields are new. */
  lemma {:induction false} NewColumnsSkip(registered: seq<DatabaseValue>, v: DatabaseValue, rest: seq<DatabaseValue>)
    requires forall i :: 0 <= i < |rest| ==> rest[i].name != v.name
    ensures NewColumns(registered + [v], rest) == NewColumns(registered, rest)
  {
    if |rest| > 0 {
      FirstNamedAppend(registered, [v], rest[0].name);
      NewColumnsSkip(registered, v, rest[1..]);
    }
  }

  /** The position of the first field SQLite cannot add a column for, or
      the number of fields when it can add them all. */
  function FirstUnaddable(added: seq<DatabaseValue>, created: bool, faults: SchemaFaults): (k: nat)
    ensures k <= |added|
    ensures forall j :: 0 <= j < k ==> Addable(added[j], created, faults)
    ensures k < |added| ==> !Addable(added[k], created, faults)
  {
    if |added| == 0 || !Addable(added[0], created, faults) then 0
    else 1 + FirstUnaddable(added[1..], created, faults)
  }

  /** `alterTableIfNeeded` adds the new fields' columns in payload order and
      succeeds exactly when SQLite accepts each of them; at the first one it
      cannot add it stops with that field's error, the columns before it kept. */
  lemma {:induction false} AlterEffect(t: Table, values: seq<DatabaseValue>, faults: SchemaFaults)
    requires DistinctNames(values)
    ensures var r := AlterTableIfNeeded(t, values, faults);
            var added := NewColumns(t.existingColumns, values);
            var k := FirstUnaddable(added, t.backing.created, faults);
            && r.0.existingColumns == t.existingColumns + added[..k]
            && (r.1.Pass? <==> k == |added|)
            && (r.1.Fail? ==> r.1.error == if added[k].valueType.Bool? then UnhandledBool(added[k].name) else SQLiteFailure)
    decreases |values|, 1
  {
    if |values| > 0 {
      var v := values[0];
      var rest := values[1..];
      var reg := t.existingColumns;
      assert DistinctNames(rest);
      if v.name == "id" || Registered(reg, v.name) {
        assert NewColumns(reg, values) == NewColumns(reg, rest);
        AlterEffect(t, rest, faults);
      } else if !Addable(v, t.backing.created, faults) {
        assert NewColumns(reg, values) == [v] + NewColumns(reg, rest);
        AlterStops(t, values, faults);
      } else {
        AlterStep(t, values, faults);
      }
    }
  }

  lemma AlterStops(t: Table, values: seq<DatabaseValue>, faults: SchemaFaults)
    requires |values| > 0 && values[0].name != "id" && !Registered(t.existingColumns, values[0].name)
    requires !Addable(values[0], t.backing.created, faults)
    requires NewColumns(t.existingColumns, values) == [values[0]] + NewColumns(t.existingColumns, values[1..])
    ensures var r := AlterTableIfNeeded(t, values, faults);
            var added := NewColumns(t.existingColumns, values);
            var k := FirstUnaddable(added, t.backing.created, faults);
            && k == 0 && added[k] == values[0]
            && r.0.existingColumns == t.existingColumns + added[..k]
            && r.1.Fail?
            && r.1.error == if added[k].valueType.Bool? then UnhandledBool(added[k].name) else SQLiteFailure
  {
    assert t.existingColumns + NewColumns(t.existingColumns, values)[..0] == t.existingColumns;
  }

  lemma AlterStep(t: Table, values: seq<DatabaseValue>, faults: SchemaFaults)
    requires DistinctNames(values)
    requires |values| > 0 && values[0].name != "id" && !Registered(t.existingColumns, values[0].name)
    requires Addable(values[0], t.backing.created, faults)
    decreases |values|, 0
    ensures var r := AlterTableIfNeeded(t, values, faults);
            var added := NewColumns(t.existingColumns, values);
            var k := FirstUnaddable(added, t.backing.created, faults);
            && r.0.existingColumns == t.existingColumns + added[..k]
            && (r.1.Pass? <==> k == |added|)
            && (r.1.Fail? ==> r.1.error == if added[k].valueType.Bool? then UnhandledBool(added[k].name) else SQLiteFailure)
  {
    var v := values[0];
    var rest := values[1..];
    var reg := t.existingColumns;
    var t' := Table(reg + [v], t.backing.(columns := t.backing.columns + [Declare(v)]));
    var tail := NewColumns(reg, rest);
    var added := NewColumns(reg, values);
    assert added == [v] + tail;
    assert DistinctNames(rest);
    NewColumnsSkip(reg, v, rest);
    AlterEffect(t', rest, faults);
    var r := AlterTableIfNeeded(t', rest, faults);
    assert AlterTableIfNeeded(t, values, faults) == r;
    var k' := FirstUnaddable(tail, t.backing.created, faults);
    assert FirstUnaddable(added, t.backing.created, faults) == 1 + k' by {
      assert added[1..] == tail;
    }
    assert r.0.existingColumns == reg + [v] + tail[..k'];
    PrefixStep(reg, v, tail, k');
    if k' < |tail| {
      assert added[1 + k'] == tail[k'];
    }
  }

  lemma PrefixStep(reg: seq<DatabaseValue>, v: DatabaseValue, tail: seq<DatabaseValue>, k: nat)
    requires k <= |tail|
    ensures reg + [v] + tail[..k] == reg + ([v] + tail)[..k + 1]
  {
    assert ([v] + tail)[..k + 1] == [v] + tail[..k];
  }

  /** The registry a first store leaves: `id`, then the payload's non-id
      fields up to the first `bool` one. It has unique names and `id` first. */
  lemma CreatedRegistry(values: seq<DatabaseValue>)
    requires DistinctNames(values)
    ensures var cols := [IdColumn] + CreateColumns(values).columns;
            DistinctNames(cols) && cols[0] == IdColumn
            && forall i :: 1 <= i < |cols| ==> cols[i] in values && cols[i].name != "id"
  {
    CreateColumnsStopsAtBool(values);
    NewColumnsDistinct([], values);
    var c := CreateColumns(values).columns;
    var n := NonId(values);
    forall i | 0 <= i < |c|
      ensures c[i] == n[i] && c[i] in values && c[i].name != "id"
    {
      assert c[i] == n[i];
      assert n[i] in n;
    }
  }

  // ---------------------------------------------------------------------
  // Schema evolution keeps the invariant and covers the payload
  // ---------------------------------------------------------------------

  /** The definitions of a registry with a column in front. */
  lemma DefinitionsCons(v: DatabaseValue, cols: Registry)
    requires !v.valueType.Bool?
    ensures Definitions([v] + cols) == [Declare(v)] + Definitions(cols)
  {
    assert ([v] + cols)[1..] == cols;
  }

  /** The definitions of a registry with a column appended. */
  lemma {:induction false} DefinitionsSnoc(cols: Registry, v: DatabaseValue)
    requires !v.valueType.Bool?
    ensures Definitions(cols + [v]) == Definitions(cols) + [Declare(v)]
    decreases |cols|
  {
    if |cols| > 0 {
      assert (cols + [v])[1..] == cols[1..] + [v];
      DefinitionsSnoc(cols[1..], v);
    }
  }

  /** Each column `alterTableIfNeeded` registers it has declared in SQLite
      just before, so SQLite's columns keep matching the registry. */
  lemma {:induction false} AlterKeepsDeclared(t: Table, values: seq<DatabaseValue>, faults: SchemaFaults)
    requires t.backing.columns == Definitions(t.existingColumns)
    ensures var t1 := AlterTableIfNeeded(t, values, faults).0;
            t1.backing.columns == Definitions(t1.existingColumns)
    decreases |values|
  {
    if |values| > 0 {
      var v := values[0];
      if v.name == "id" || Registered(t.existingColumns, v.name) {
        AlterKeepsDeclared(t, values[1..], faults);
      } else if !v.valueType.Bool? && t.backing.created && v.name !in faults.alter {
        var t' := Table(t.existingColumns + [v], t.backing.(columns := t.backing.columns + [Declare(v)]));
        DefinitionsSnoc(t.existingColumns, v);
        AlterKeepsDeclared(t', values[1..], faults);
      }
    }
  }

  /** After a successful schema evolution every non-id payload field has a
      registered column of its kind. */
  predicate Covers(cols: seq<DatabaseValue>, values: seq<DatabaseValue>) {
    forall i :: 0 <= i < |values| && values[i].name != "id" ==>
      Registered(cols, values[i].name) && FirstNamed(cols, values[i].name).value.valueType.TypeIsEqual(values[i].valueType)
  }

  lemma EvolvePreservesValid(t: Table, values: seq<DatabaseValue>, faults: SchemaFaults)
    requires Valid(t) && DistinctNames(values)
    ensures Valid(EvolveSchema(t, values, faults).0)
    ensures EvolveSchema(t, values, faults).0.TableExists()
  {
    var t1 := EvolveSchema(t, values, faults).0;
    if !t.TableExists() {
      CreatedRegistry(values);
      var cols := CreateColumns(values).columns;
      assert t.existingColumns + [IdColumn] + cols == [IdColumn] + cols;
      DefinitionsCons(IdColumn, cols);
    } else {
      if t.backing.created {
        AlterKeepsDeclared(t, values, faults);
      }
      forall x | x in t1.backing.rows
        ensures CellsConform(x, t1.existingColumns)
      {
        CellsConformExtend(x, t.existingColumns, t1.existingColumns);
      }
    }
  }

  lemma EvolveCovers(t: Table, values: seq<DatabaseValue>, faults: SchemaFaults)
    requires DistinctNames(values)
    requires ValidateTypes(values, t.existingColumns).Pass?
    requires EvolveSchema(t, values, faults).1.Pass?
    ensures Covers(EvolveSchema(t, values, faults).0.existingColumns, values)
  {
    if !t.TableExists() {
      CreatePassCovers(t, values, faults);
    } else {
      AlterPassCovers(t, values, faults);
    }
  }

  lemma CreatePassCovers(t: Table, values: seq<DatabaseValue>, faults: SchemaFaults)
    requires t.existingColumns == [] && DistinctNames(values)
    requires CreateTable(t, values, faults).1.Pass?
    ensures Covers(CreateTable(t, values, faults).0.existingColumns, values)
  {
    CreateColumnsStopsAtBool(values);
    assert CreateTable(t, values, faults).0.existingColumns == [IdColumn] + NonId(values);
    CreateCovers(values);
  }

  lemma AlterPassCovers(t: Table, values: seq<DatabaseValue>, faults: SchemaFaults)
    requires DistinctNames(values)
    requires ValidateTypes(values, t.existingColumns).Pass?
    requires AlterTableIfNeeded(t, values, faults).1.Pass?
    ensures Covers(AlterTableIfNeeded(t, values, faults).0.existingColumns, values)
  {
    AlterEffect(t, values, faults);
    var added := NewColumns(t.existingColumns, values);
    assert added[..|added|] == added;
    AlterCovers(t.existingColumns, values);
  }

  /** `id` followed by all non-id fields covers the fields. */
  lemma CreateCovers(values: seq<DatabaseValue>)
    requires DistinctNames(values)
    ensures Covers([IdColumn] + NonId(values), values)
  {
    NewColumnsDistinct([], values);
    var n := NonId(values);
    forall i | 0 <= i < |values| && values[i].name != "id"
      ensures Registered([IdColumn] + n, values[i].name)
              && FirstNamed([IdColumn] + n, values[i].name).value.valueType.TypeIsEqual(values[i].valueType)
    {
      assert values[i] in n;
      var m :| 0 <= m < |n| && n[m] == values[i];
      FirstNamedOfDistinct(n, m);
      FirstNamedAppend([IdColumn], n, values[i].name);
    }
  }

  /** A registry the fields conform to, extended by their new columns, covers them. */
  lemma AlterCovers(reg: seq<DatabaseValue>, values: seq<DatabaseValue>)
    requires DistinctNames(values)
    requires forall i :: 0 <= i < |values| ==> Conforms(values[i], reg)
    ensures Covers(reg + NewColumns(reg, values), values)
  {
    var added := NewColumns(reg, values);
    NewColumnsDistinct(reg, values);
    forall i | 0 <= i < |values| && values[i].name != "id"
      ensures Registered(reg + added, values[i].name)
              && FirstNamed(reg + added, values[i].name).value.valueType.TypeIsEqual(values[i].valueType)
    {
      var v := values[i];
      FirstNamedAppend(reg, added, v.name);
      assert Conforms(v, reg);
      if !Registered(reg, v.name) {
        assert v in added;
        var m :| 0 <= m < |added| && added[m] == v;
        FirstNamedOfDistinct(added, m);
      }
    }
  }

  // ---------------------------------------------------------------------
  // Row bookkeeping
  // ---------------------------------------------------------------------

  /** With ascending ids at most one row carries a given id. */
  lemma {:induction false} CountIdAtMostOne(rows: seq<Row>, id: int)
    requires IdsAscending(rows)
    ensures CountId(rows, id) <= 1
    ensures CountId(rows, id) == 1 <==> exists x :: x in rows && x.id == id
  {
    if |rows| > 0 {
      assert IdsAscending(rows[1..]);
      CountIdAtMostOne(rows[1..], id);
      if rows[0].id == id {
        forall x | x in rows[1..]
          ensures x.id != id
        {
          var m :| 0 <= m < |rows[1..]| && rows[1..][m] == x;
          assert rows[m + 1] == x;
        }
      }
    }
  }

  /** Keeping a subset of the rows, in order, keeps the ids ascending. */
  lemma {:induction false} WhereAscending(rows: seq<Row>, conds: seq<Condition>, nilMatches: Option<ValueType> -> bool, keep: bool)
    requires IdsAscending(rows)
    ensures IdsAscending(Where(rows, conds, nilMatches, keep))
  {
    if |rows| > 0 {
      var rest := Where(rows[1..], conds, nilMatches, keep);
      assert IdsAscending(rows[1..]);
      WhereAscending(rows[1..], conds, nilMatches, keep);
      if Matches(rows[0], conds, nilMatches) == keep {
        AscendingCons(rows, rest);
      }
    }
  }

  lemma {:induction false} WithoutIdAscending(rows: seq<Row>, id: int)
    requires IdsAscending(rows)
    ensures IdsAscending(WithoutId(rows, id))
  {
    if |rows| > 0 {
      var rest := WithoutId(rows[1..], id);
      assert IdsAscending(rows[1..]);
      WithoutIdAscending(rows[1..], id);
      if rows[0].id != id {
        AscendingCons(rows, rest);
      }
    }
  }

  /** Putting the first row in front of ascending rows drawn from the rest
      keeps them ascending. */
  lemma AscendingCons(rows: seq<Row>, rest: seq<Row>)
    requires |rows| > 0 && IdsAscending(rows) && IdsAscending(rest)
    requires forall x :: x in rest ==> x in rows[1..]
    ensures IdsAscending([rows[0]] + rest)
  {
    forall j | 0 <= j < |rest|
      ensures rows[0].id < rest[j].id
    {
      assert rest[j] in rest;
      var m :| 0 <= m < |rows[1..]| && rows[1..][m] == rest[j];
      assert rows[m + 1] == rest[j];
    }
  }

  // ---------------------------------------------------------------------
  // Every operation keeps the invariant
  // ---------------------------------------------------------------------

  /** The setters of covered fields have registered columns of their kind. */
  lemma AssignmentsConform(cols: seq<DatabaseValue>, values: seq<DatabaseValue>)
    requires Covers(cols, values)
    ensures CellsConform(Row(0, Assignments(values)), cols)
  {
    var setters := Assignments(values);
    forall k | k in setters
      ensures Registered(cols, k) && FirstNamed(cols, k).value.valueType.TypeIsEqual(setters[k])
    {
      var i :| 0 <= i < |values| && values[i] == FirstNamed(values, k).value && values[i].name == k
                && forall j :: 0 <= j < i ==> values[j].name != k;
    }
  }

  /** Merging conforming setters into a conforming row keeps it conforming. */
  lemma UpdateConforms(rows: seq<Row>, id: int, setters: map<string, ValueType>, cols: seq<DatabaseValue>)
    requires CellsConform(Row(0, setters), cols)
    requires forall x :: x in rows ==> CellsConform(x, cols)
    ensures forall x :: x in UpdateRows(rows, id, setters) ==> CellsConform(x, cols)
  {
    var rows' := UpdateRows(rows, id, setters);
    forall x | x in rows'
      ensures CellsConform(x, cols)
    {
      var m :| 0 <= m < |rows'| && rows'[m] == x;
      assert rows[m] in rows;
    }
  }

  /** The UPDATE of `store` with conforming setters keeps the invariant. */
  lemma UpdateKeepsValid(t: Table, id: int, setters: map<string, ValueType>)
    requires Valid(t) && CellsConform(Row(0, setters), t.existingColumns)
    ensures Valid(t.(backing := t.backing.(rows := UpdateRows(t.backing.rows, id, setters))))
  {
    var rows := t.backing.rows;
    var rows' := UpdateRows(rows, id, setters);
    UpdateConforms(rows, id, setters, t.existingColumns);
    forall x | x in rows'
      ensures 1 <= x.id < t.backing.nextId
    {
      var m :| 0 <= m < |rows'| && rows'[m] == x;
      assert rows[m] in rows;
    }
  }

  /** The INSERT of `store` with conforming setters keeps the invariant. */
  lemma InsertKeepsValid(t: Table, setters: map<string, ValueType>)
    requires Valid(t) && t.backing.created && CellsConform(Row(0, setters), t.existingColumns)
    ensures var id := t.backing.nextId;
            Valid(t.(backing := t.backing.(rows := t.backing.rows + [Row(id, setters)], nextId := id + 1)))
  {
  }

  /** Writing fields the registry covers keeps the invariant. */
  lemma WritePreservesValid(t: Table, json: Json, values: seq<DatabaseValue>)
    requires Valid(t) && Covers(t.existingColumns, values)
    ensures Valid(Write(t, json, values).table)
  {
    var setters := Assignments(values);
    AssignmentsConform(t.existingColumns, values);
    match FirstNamed(values, "id")
    case Some(idField) =>
      if idField.valueType.Int? && t.backing.created {
        UpdateKeepsValid(t, idField.valueType.i, setters);
      }
    case None =>
      if t.backing.created {
        InsertKeepsValid(t, setters);
      }
  }

  lemma StorePreservesValid(t: Table, json: Json, faults: SchemaFaults)
    requires Valid(t) && DistinctKeys(DictionaryValue(json))
    ensures Valid(Store(t, json, faults).table)
  {
    var ms := DictionaryValue(json);
    if Resolve(ms).Success? {
      var values := Resolve(ms).value;
      if ValidateTypes(values, t.existingColumns).Pass? {
        ResolvedNamesDistinct(ms);
        EvolvePreservesValid(t, values, faults);
        var (t1, evolved) := EvolveSchema(t, values, faults);
        if evolved.Pass? {
          EvolveCovers(t, values, faults);
          WritePreservesValid(t1, json, values);
        }
      }
    }
  }

  lemma DeletePreservesValid(t: Table, id: int)
    requires Valid(t)
    ensures Valid(Delete(t, id).table)
  {
    if t.TableExists() && t.backing.created {
      WithoutIdAscending(t.backing.rows, id);
    }
  }

  lemma DeleteManyPreservesValid(t: Table, filter: seq<(string, string)>, p: FilterParsers)
    requires Valid(t)
    ensures Valid(DeleteMany(t, filter, p).table)
  {
    if t.TableExists() && BuildConditions(t.existingColumns, filter, p).Success? && t.backing.created {
      WhereAscending(t.backing.rows, BuildConditions(t.existingColumns, filter, p).value, p.nilMatches, false);
    }
  }
}

=== FILE: table_manager.dfy ===
/** The per-table engine. A table is its column registry (`existingColumns`,
    in the order columns were added) together with an abstract picture of
    the SQLite table behind it: whether it exists, its declared columns, its
    rows in id order and the next auto-increment id. Every operation takes the table and returns
    the new table with the result or the error it throws. */
module TableManager {
  import opened Wrappers
  import opened JsonModel
  import opened JsonResolver
  import opened SQLiteExtension

  predicate NoBool(cols: seq<DatabaseValue>) {
    forall i :: 0 <= i < |cols| ==> !cols[i].valueType.Bool?
  }

  /** The column registry. No column is ever registered as `bool`: table
      creation and extension have no column kind for it, and the rebuild
      from SQLite's affinities never yields it. */
  type Registry = cols: seq<DatabaseValue> | NoBool(cols)

  /** The column the first store registers ahead of every payload field. */
  const IdColumn := DatabaseValue("id", Int(0))

  /** A stored row: its auto-assigned id and the non-NULL values of its other
      columns (a column missing from `cells` holds NULL). */
  datatype Row = Row(id: int, cells: map<string, ValueType>)

  /** The SQLite table behind a registry: whether it exists, the columns it
      was declared with, in declaration order, its rows and the next
      auto-increment id. */
  datatype Backing = Backing(created: bool, columns: seq<ColumnDefinition>, rows: seq<Row>, nextId: int)

  datatype Table = Table(existingColumns: Registry, backing: Backing) {
    /** `tableExists`: the registry is not empty. */
    predicate TableExists() { |existingColumns| > 0 }
  }

  /** An empty registry in front of a table SQLite has never created. */
  const EmptyTable := Table([], Backing(false, [], [], 1))

  /** The errors an operation throws: the resolver's, the table manager's own,
      `UnhandledBool` for a `bool` value reaching one of the table manager's
      switches (none of them has a `bool` case), and `SQLiteFailure` for a
      statement SQLite rejects. */
  datatype Error =
    | Resolver(cause: JsonResolverError)
    | UnsupportedDBType
    | InvalidIdType
    | ObjectNotExists(id: int)
    | UnknownFilterKey(key: string)
    | UnhandledBool(key: string)
    | SQLiteFailure

  /** The table after an operation, and what the operation returned or threw. */
  datatype Step<R> = Step(table: Table, result: Result<R, Error>)

  /** Which schema statements SQLite rejects: the CREATE TABLE, and the
      ADD COLUMN for each listed column name. */
  datatype SchemaFaults = SchemaFaults(create: bool, alter: set<string>)

  /** The value a row holds in column `name`, if it is not NULL. */
  function CellOf(row: Row, name: string): Option<ValueType> {
    if name == "id" then Some(Int(row.id))
    else if name in row.cells then Some(row.cells[name])
    else None
  }

  predicate Registered(cols: seq<DatabaseValue>, name: string) {
    FirstNamed(cols, name).Some?
  }

  // ---------------------------------------------------------------------
  // Rebuilding the registry when a table manager is constructed
  // ---------------------------------------------------------------------

  /** The registry `init` rebuilds from the columns SQLite reports for the
      table, typing each by its affinity; one column of an unsupported
      affinity makes the whole rebuild throw `unsupportedDBType`. */
  function RebuildRegistry(definitions: seq<ColumnDefinition>): (r: Result<Registry, Error>)
    ensures r.Success? <==> forall i :: 0 <= i < |definitions| ==> AffinityValueType(definitions[i].affinity).Some?
    ensures r.Failure? ==> r.error == UnsupportedDBType
    ensures r.Success? ==> |r.value| == |definitions|
    ensures r.Success? ==> forall i :: 0 <= i < |definitions| ==>
              r.value[i].name == definitions[i].name
              && Some(r.value[i].valueType) == AffinityValueType(definitions[i].affinity)
  {
    if |definitions| == 0 then Success([])
    else
      match AffinityValueType(definitions[0].affinity)
      case None => Failure(UnsupportedDBType)
      case Some(t) =>
        match RebuildRegistry(definitions[1..])
        case Failure(e) => Failure(e)
        case Success(rest) => Success([DatabaseValue(definitions[0].name, t)] + rest)
  }

  /** `TableManager.init`: the registry rebuilt from SQLite's column
      definitions, in front of the backing table they describe. */
  function Init(definitions: seq<ColumnDefinition>, backing: Backing): Result<Table, Error> {
    match RebuildRegistry(definitions)
    case Failure(e) => Failure(e)
    case Success(registry) => Success(Table(registry, backing))
  }

  /** The column SQLite declares for a field: an optional INTEGER, REAL or
      TEXT column of the field's name. */
  function Declare(v: DatabaseValue): ColumnDefinition
    requires !v.valueType.Bool?
  {
    ColumnDefinition(v.name, DeclaredAffinity(v.valueType).value)
  }

  /** The column definitions of a registry, one per registered column: what
      SQLite reports for a table declared column by column alongside it. */
  function Definitions(cols: Registry): (r: seq<ColumnDefinition>)
    ensures |r| == |cols|
    ensures forall i :: 0 <= i < |cols| ==> r[i] == Declare(cols[i])
  {
    if |cols| == 0 then []
    else [Declare(cols[0])] + Definitions(cols[1..])
  }

  // ---------------------------------------------------------------------
  // Schema evolution
  // ---------------------------------------------------------------------

  /** The fields that are not the payload `id`, in order: the columns a
      table created for them gets after `id`. */
  function NonId(values: seq<DatabaseValue>): seq<DatabaseValue> {
    NewColumns([], values)
  }

  /** The fields a schema change adds columns for: neither the payload `id`
      nor already registered. */
  function NewColumns(registered: seq<DatabaseValue>, values: seq<DatabaseValue>): (r: seq<DatabaseValue>)
    ensures |r| <= |values|
    ensures forall v :: v in r <==> v in values && v.name != "id" && !Registered(registered, v.name)
  {
    if |values| == 0 then []
    else
      (if values[0].name == "id" || Registered(registered, values[0].name) then [] else [values[0]])
      + NewColumns(registered, values[1..])
  }

  /** The columns createTable's builder closure registers after `id`, and the
      name of the `bool` field it stops at, if any. */
  datatype Built = Built(columns: seq<DatabaseValue>, boolKey: Option<string>)

  /** The builder closure's loop: each non-id field is declared and registered
      in order, until a `bool` field, which has no column kind. */
  function CreateColumns(values: seq<DatabaseValue>): (r: Built)
    ensures NoBool(r.columns)
  {
    if |values| == 0 then Built([], None)
    else if values[0].name == "id" then CreateColumns(values[1..])
    else if values[0].valueType.Bool? then Built([], Some(values[0].name))
    else
      var rest := CreateColumns(values[1..]);
      Built([values[0]] + rest.columns, rest.boolKey)
  }

  /** The closure registers exactly the non-id fields before the first
      `bool` one, and stops there only if there is one. */
  lemma {:induction false} CreateColumnsStopsAtBool(values: seq<DatabaseValue>)
    ensures CreateColumns(values).columns <= NonId(values)
    ensures CreateColumns(values).boolKey.None? <==> NoBool(NonId(values))
    ensures CreateColumns(values).boolKey.None? ==> CreateColumns(values).columns == NonId(values)
    ensures CreateColumns(values).boolKey.Some? ==>
              var k := |CreateColumns(values).columns|;
              k < |NonId(values)| && NonId(values)[k].valueType.Bool?
              && CreateColumns(values).boolKey.value == NonId(values)[k].name
  {
    if |values| == 0 {
    } else if values[0].name == "id" {
      assert NonId(values) == NonId(values[1..]);
      CreateColumnsStopsAtBool(values[1..]);
    } else {
      var tail := NonId(values[1..]);
      assert NonId(values) == [values[0]] + tail;
      if !values[0].valueType.Bool? {
        CreateColumnsStopsAtBool(values[1..]);
        var rest := CreateColumns(values[1..]);
        assert CreateColumns(values).columns == [values[0]] + rest.columns;
        if NoBool([values[0]] + tail) {
          forall i | 0 <= i < |tail| ensures !tail[i].valueType.Bool? {
            assert tail[i] == ([values[0]] + tail)[i + 1];
          }
        }
      }
    }
  }

  /** `createTable`: the builder closure declares the `id` column and then
      a column per payload field, appending each to the registry as it goes,
      before SQLite runs the statement; so the registry keeps them whether or
      not the table gets created, and SQLite has the declared columns only
      when it does. */
  function CreateTable(t: Table, values: seq<DatabaseValue>, faults: SchemaFaults): (r: (Table, Outcome<Error>))
    ensures r.0.existingColumns == t.existingColumns + [IdColumn] + CreateColumns(values).columns
    ensures r.0.backing.rows == t.backing.rows && r.0.backing.nextId == t.backing.nextId
    ensures r.1.Pass? <==> CreateColumns(values).boolKey.None? && !faults.create
    ensures r.1.Pass? ==> r.0.backing.created
    ensures r.1.Pass? ==> r.0.backing.columns == [Declare(IdColumn)] + Definitions(CreateColumns(values).columns)
    ensures r.1.Fail? ==> r.0.backing == t.backing
    ensures r.1.Fail? ==> r.1.error.UnhandledBool? || r.1.error == SQLiteFailure
  {
    var built := CreateColumns(values);
    var registered := t.existingColumns + [IdColumn] + built.columns;
    if built.boolKey.Some? then
      (t.(existingColumns := registered), Fail(UnhandledBool(built.boolKey.value)))
    else if faults.create then
      (t.(existingColumns := registered), Fail(SQLiteFailure))
    else
      (Table(registered, t.backing.(created := true, columns := [Declare(IdColumn)] + Definitions(built.columns))), Pass)
  }

  /** Whether SQLite adds a column for field `v`: the field has a column
      kind, the table exists and the statement does not fail. */
  predicate Addable(v: DatabaseValue, created: bool, faults: SchemaFaults) {
    !v.valueType.Bool? && created && v.name !in faults.alter
  }

  /** `alterTableIfNeeded`: for each unseen non-id field, in order, add the
      column in SQLite and then register it; stop at the first field that
      cannot be added. Rows are untouched: a new column is NULL in them. */
  function AlterTableIfNeeded(t: Table, values: seq<DatabaseValue>, faults: SchemaFaults): (r: (Table, Outcome<Error>))
    decreases |values|
    ensures r.0.backing == t.backing.(columns := r.0.backing.columns)
    ensures t.backing.columns <= r.0.backing.columns
    ensures !t.backing.created ==> r.0.backing == t.backing
    ensures t.existingColumns <= r.0.existingColumns
    ensures DistinctNames(t.existingColumns) ==> DistinctNames(r.0.existingColumns)
    ensures r.1.Fail? ==> r.1.error.UnhandledBool? || r.1.error == SQLiteFailure
  {
    if |values| == 0 then (t, Pass)
    else
      var v := values[0];
      if v.name == "id" || Registered(t.existingColumns, v.name) then
        AlterTableIfNeeded(t, values[1..], faults)
      else if v.valueType.Bool? then
        (t, Fail(UnhandledBool(v.name)))
      else if !t.backing.created || v.name in faults.alter then
        (t, Fail(SQLiteFailure))
      else
        var t' := Table(t.existingColumns + [v], t.backing.(columns := t.backing.columns + [Declare(v)]));
        AlterTableIfNeeded(t', values[1..], faults)
  }

  /** Creation for an empty registry, extension otherwise. */
  function EvolveSchema(t: Table, values: seq<DatabaseValue>, faults: SchemaFaults): (Table, Outcome<Error>) {
    if !t.TableExists() then CreateTable(t, values, faults) else AlterTableIfNeeded(t, values, faults)
  }

  // ---------------------------------------------------------------------
  // Storing a document
  // ---------------------------------------------------------------------

  /** The setters `store` builds: every non-id field's value, by name. */
  function Assignments(values: seq<DatabaseValue>): (r: map<string, ValueType>)
    ensures forall k :: k in r <==> k != "id" && Registered(values, k)
    ensures forall k :: k in r ==> Registered(values, k) && r[k] == FirstNamed(values, k).value.valueType
  {
    if |values| == 0 then map[]
    else
      var rest := Assignments(values[1..]);
      if values[0].name == "id" then rest else rest[values[0].name := values[0].valueType]
  }

  /** The number of rows with the given id. */
  function CountId(rows: seq<Row>, id: int): (r: nat)
    ensures r <= |rows|
    ensures r == 0 <==> forall x :: x in rows ==> x.id != id
  {
    if |rows| == 0 then 0
    else (if rows[0].id == id then 1 else 0) + CountId(rows[1..], id)
  }

  /** The UPDATE of `store`: the setters applied to every row with the id;
      the columns they do not name keep their values. */
  function UpdateRows(rows: seq<Row>, id: int, setters: map<string, ValueType>): (r: seq<Row>)
    ensures |r| == |rows|
    ensures forall i :: 0 <= i < |rows| ==> r[i].id == rows[i].id
    ensures forall i :: 0 <= i < |rows| && rows[i].id != id ==> r[i] == rows[i]
    ensures forall i :: 0 <= i < |rows| && rows[i].id == id ==> r[i].cells.Keys == rows[i].cells.Keys + setters.Keys
    ensures forall i, k :: 0 <= i < |rows| && rows[i].id == id && k in r[i].cells ==>
              r[i].cells[k] == if k in setters then setters[k] else rows[i].cells[k]
  {
    seq(|rows|, i requires 0 <= i < |rows| =>
      if rows[i].id == id then rows[i].(cells := rows[i].cells + setters) else rows[i])
  }

  /** The response to an insert: the stored object with `"id"` set; a
      document that is not an object answers with an empty object. */
  function WithId(json: Json, id: int): Json {
    match json
    case JObject(ms) => JObject(ms + [Member("id", JNumber(Integral(id)))])
    case _ => JObject([])
  }

  /** Inserts or updates the row for already validated fields on a table
      whose schema already covers them. */
  function Write(t: Table, json: Json, values: seq<DatabaseValue>): (r: Step<Json>)
    ensures r.table.existingColumns == t.existingColumns
  {
    var setters := Assignments(values);
    match FirstNamed(values, "id")
    case Some(idField) =>
      (match idField.valueType
       case Int(n) =>
         if !t.backing.created then Step(t, Failure(SQLiteFailure))
         else
           var t' := t.(backing := t.backing.(rows := UpdateRows(t.backing.rows, n, setters)));
           if CountId(t.backing.rows, n) == 1 then Step(t', Success(json))
           else Step(t', Failure(ObjectNotExists(n)))
       case _ => Step(t, Failure(InvalidIdType)))
    case None =>
      if !t.backing.created then Step(t, Failure(SQLiteFailure))
      else
        var id := t.backing.nextId;
        var t' := t.(backing := t.backing.(rows := t.backing.rows + [Row(id, setters)], nextId := id + 1));
        Step(t', Success(WithId(json, id)))
  }

  /** `store`: resolve and validate the document first, so those failures
      change nothing; then evolve the schema (whose effects stay even if a
      later step throws), then insert, or update when there is an `id`. */
  function Store(t: Table, json: Json, faults: SchemaFaults): (r: Step<Json>)
    ensures Resolve(DictionaryValue(json)).Failure? ==>
              r == Step(t, Failure(Resolver(Resolve(DictionaryValue(json)).error)))
    ensures Resolve(DictionaryValue(json)).Success? && ValidateTypes(Resolve(DictionaryValue(json)).value, t.existingColumns).Fail? ==>
              r == Step(t, Failure(Resolver(ValidateTypes(Resolve(DictionaryValue(json)).value, t.existingColumns).error)))
    ensures t.existingColumns <= r.table.existingColumns
  {
    match Resolve(DictionaryValue(json))
    case Failure(e) => Step(t, Failure(Resolver(e)))
    case Success(values) =>
      match ValidateTypes(values, t.existingColumns)
      case Fail(e) => Step(t, Failure(Resolver(e)))
      case Pass =>
        var (t1, evolved) := EvolveSchema(t, values, faults);
        if evolved.Fail? then Step(t1, Failure(evolved.error)) else Write(t1, json, values)
  }

  // ---------------------------------------------------------------------
  // Reading and deleting
  // ---------------------------------------------------------------------

  /** The object `get` builds for a row: one member per registered column
      whose value is not NULL (assigning a nil optional into a Swift
      dictionary leaves the key out). */
  function Project(cols: seq<DatabaseValue>, row: Row): (r: seq<Member>)
    ensures forall k {:trigger Lookup(r, k)} :: Lookup(r, k) ==
              if Registered(cols, k) && CellOf(row, k).Some? then Some(ToJson(CellOf(row, k).value)) else None
  {
    if |cols| == 0 then []
    else
      var rest := Project(cols[1..], row);
      match CellOf(row, cols[0].name)
      case None => rest
      case Some(v) => [Member(cols[0].name, ToJson(v))] + rest
  }

  /** `schema`: each registered column's name mapped to its type tag. */
  function SchemaMembers(cols: seq<DatabaseValue>): (r: seq<Member>)
    ensures |r| == |cols|
    ensures forall k {:trigger Lookup(r, k)} :: Lookup(r, k) ==
              if Registered(cols, k) then Some(JString(FirstNamed(cols, k).value.valueType.Readable())) else None
  {
    if |cols| == 0 then []
    else [Member(cols[0].name, JString(cols[0].valueType.Readable()))] + SchemaMembers(cols[1..])
  }

  function Schema(t: Table): Json {
    JObject(SchemaMembers(t.existingColumns))
  }

  /** The first row with the given id (SQLite's `pluck`). */
  function RowWithId(rows: seq<Row>, id: int): (r: Option<Row>)
    ensures r.None? <==> forall x :: x in rows ==> x.id != id
    ensures r.Some? ==> r.value in rows && r.value.id == id
  {
    if |rows| == 0 then None
    else if rows[0].id == id then Some(rows[0])
    else RowWithId(rows[1..], id)
  }

  /** The rows without the given id, in order. */
  function WithoutId(rows: seq<Row>, id: int): (r: seq<Row>)
    ensures |r| + CountId(rows, id) == |rows|
    ensures forall x :: x in r <==> x in rows && x.id != id
  {
    if |rows| == 0 then []
    else (if rows[0].id == id then [] else [rows[0]]) + WithoutId(rows[1..], id)
  }

  /** `get`: nothing while the table does not exist or has no such row;
      otherwise the row's projection. */
  function Get(t: Table, id: int): (r: Result<Option<Json>, Error>)
    ensures !t.TableExists() ==> r == Success(None)
    ensures t.TableExists() && !t.backing.created ==> r == Failure(SQLiteFailure)
    ensures t.TableExists() && t.backing.created ==> r.Success?
    ensures r.Success? && t.TableExists() ==>
              (r.value.None? <==> forall x :: x in t.backing.rows ==> x.id != id)
    ensures r.Success? && r.value.Some? ==>
              exists x :: x in t.backing.rows && x.id == id && r.value.value == JObject(Project(t.existingColumns, x))
  {
    if !t.TableExists() then Success(None)
    else if !t.backing.created then Failure(SQLiteFailure)
    else
      match RowWithId(t.backing.rows, id)
      case None => Success(None)
      case Some(row) => Success(Some(JObject(Project(t.existingColumns, row))))
  }

  /** `delete(id:)`: no effect while the table does not exist; otherwise the
      rows with the id are deleted and exactly one must have been. */
  function Delete(t: Table, id: int): (r: Step<()>)
    ensures !t.TableExists() ==> r == Step(t, Success(()))
    ensures t.TableExists() && !t.backing.created ==> r == Step(t, Failure(SQLiteFailure))
    ensures r.table.existingColumns == t.existingColumns
    ensures r.table.backing.created == t.backing.created && r.table.backing.nextId == t.backing.nextId
    ensures forall x :: x in r.table.backing.rows <==> x in t.backing.rows && (r.table == t || x.id != id)
    ensures t.TableExists() && t.backing.created ==>
              (r.result.Success? <==> CountId(t.backing.rows, id) == 1)
    ensures r.result.Failure? && t.backing.created ==> r.result.error == ObjectNotExists(id)
  {
    if !t.TableExists() then Step(t, Success(()))
    else if !t.backing.created then Step(t, Failure(SQLiteFailure))
    else
      var t' := t.(backing := t.backing.(rows := WithoutId(t.backing.rows, id)));
      if CountId(t.backing.rows, id) == 1 then Step(t', Success(()))
      else Step(t', Failure(ObjectNotExists(id)))
  }

  // ---------------------------------------------------------------------
  // Filters
  // ---------------------------------------------------------------------

  /** One AND-ed filter condition: the column equals a typed literal, or is
      compared with the nil a failed parse produces. */
  datatype Condition = Equals(column: string, value: ValueType) | EqualsNil(column: string)

  /** The parts of a filter the model leaves open: `Int64(_)` and
      `Double(_)` on the filter text, and which cells SQLite treats as equal
      to a nil literal. */
  datatype FilterParsers = FilterParsers(
    parseInt: string -> Option<int>,
    parseDouble: string -> Option<Float64>,
    nilMatches: Option<ValueType> -> bool)

  /** The condition a filter entry on column `c` becomes, by the column's
      registered kind. */
  function ConditionFor(c: DatabaseValue, text: string, p: FilterParsers): (r: Condition)
    requires !c.valueType.Bool?
    ensures r.column == c.name
    ensures c.valueType.String? ==> r == Equals(c.name, String(text))
    ensures c.valueType.Int? ==>
              r == if p.parseInt(text).Some? then Equals(c.name, Int(p.parseInt(text).value)) else EqualsNil(c.name)
    ensures c.valueType.Double? ==>
              r == if p.parseDouble(text).Some? then Equals(c.name, Double(p.parseDouble(text).value)) else EqualsNil(c.name)
    ensures r.EqualsNil? <==> (c.valueType.Int? && p.parseInt(text).None?) || (c.valueType.Double? && p.parseDouble(text).None?)
    ensures r.Equals? ==> r.value.TypeIsEqual(c.valueType)
  {
    match c.valueType
    case String(_) => Equals(c.name, String(text))
    case Int(_) =>
      (match p.parseInt(text)
       case Some(n) => Equals(c.name, Int(n))
       case None => EqualsNil(c.name))
    case Double(_) =>
      (match p.parseDouble(text)
       case Some(d) => Equals(c.name, Double(d))
       case None => EqualsNil(c.name))
  }

  /** Turns a filter into conditions, throwing `unknownFilterKey` at the
      first key that names no registered column. */
  function BuildConditions(cols: Registry, filter: seq<(string, string)>, p: FilterParsers): (r: Result<seq<Condition>, Error>)
    ensures r.Success? <==> forall i :: 0 <= i < |filter| ==> Registered(cols, filter[i].0)
    ensures r.Failure? ==> exists i :: (0 <= i < |filter| && !Registered(cols, filter[i].0)
              && r.error == UnknownFilterKey(filter[i].0)
              && forall j :: 0 <= j < i ==> Registered(cols, filter[j].0))
    ensures r.Success? ==> |r.value| == |filter|
    ensures r.Success? ==> forall i :: 0 <= i < |filter| ==> r.value[i].column == filter[i].0
    ensures r.Success? ==> forall i :: 0 <= i < |filter| ==>
              Registered(cols, filter[i].0) && r.value[i] == ConditionFor(FirstNamed(cols, filter[i].0).value, filter[i].1, p)
  {
    if |filter| == 0 then Success([])
    else
      match FirstNamed(cols, filter[0].0)
      case None => Failure(UnknownFilterKey(filter[0].0))
      case Some(c) =>
        match BuildConditions(cols, filter[1..], p)
        case Failure(e) => Failure(e)
        case Success(rest) => Success([ConditionFor(c, filter[0].1, p)] + rest)
  }

  predicate Holds(row: Row, c: Condition, nilMatches: Option<ValueType> -> bool) {
    match c
    case Equals(name, v) => CellOf(row, name) == Some(v)
    case EqualsNil(name) => nilMatches(CellOf(row, name))
  }

  /** All conditions hold: filter entries are AND-ed. */
  predicate Matches(row: Row, conds: seq<Condition>, nilMatches: Option<ValueType> -> bool) {
    forall i :: 0 <= i < |conds| ==> Holds(row, conds[i], nilMatches)
  }

  /** The rows for which `Matches` equals `keep`, in order. */
  function Where(rows: seq<Row>, conds: seq<Condition>, nilMatches: Option<ValueType> -> bool, keep: bool): (r: seq<Row>)
    ensures |r| <= |rows|
    ensures forall x :: x in r <==> x in rows && Matches(x, conds, nilMatches) == keep
  {
    if |rows| == 0 then []
    else
      (if Matches(rows[0], conds, nilMatches) == keep then [rows[0]] else [])
      + Where(rows[1..], conds, nilMatches, keep)
  }

  /** The objects `getMany` answers for the rows it selected. */
  function ProjectAll(cols: seq<DatabaseValue>, rows: seq<Row>): seq<Json> {
    seq(|rows|, i requires 0 <= i < |rows| => JObject(Project(cols, rows[i])))
  }

  /** `getMany`: nothing while the table does not exist; otherwise the
      projections of the rows matching every filter entry (all rows for no
      filter). */
  function GetMany(t: Table, filter: Option<seq<(string, string)>>, p: FilterParsers): (r: Result<Option<Json>, Error>)
    ensures !t.TableExists() ==> r == Success(None)
    ensures t.TableExists() ==>
              (r.Failure? && r.error.UnknownFilterKey? <==> BuildConditions(t.existingColumns, filter.GetOr([]), p).Failure?)
    ensures t.TableExists() && BuildConditions(t.existingColumns, filter.GetOr([]), p).Failure? ==>
              r == Failure(BuildConditions(t.existingColumns, filter.GetOr([]), p).error)
    ensures r.Success? && t.TableExists() ==> r.value.Some? && r.value.value.JArray?
  {
    if !t.TableExists() then Success(None)
    else
      match BuildConditions(t.existingColumns, filter.GetOr([]), p)
      case Failure(e) => Failure(e)
      case Success(conds) =>
        if !t.backing.created then Failure(SQLiteFailure)
        else Success(Some(JArray(ProjectAll(t.existingColumns, Where(t.backing.rows, conds, p.nilMatches, true)))))
  }

  /** `deleteMany`: no effect while the table does not exist; otherwise every
      row matching the filter is deleted, none matching being no error. */
  function DeleteMany(t: Table, filter: seq<(string, string)>, p: FilterParsers): (r: Step<()>)
    ensures !t.TableExists() ==> r == Step(t, Success(()))
    ensures r.table.existingColumns == t.existingColumns
    ensures r.table.backing.created == t.backing.created && r.table.backing.nextId == t.backing.nextId
    ensures t.TableExists() && BuildConditions(t.existingColumns, filter, p).Failure? ==>
              r == Step(t, Failure(BuildConditions(t.existingColumns, filter, p).error))
    ensures r.result.Success? && t.TableExists() ==>
              forall x :: x in r.table.backing.rows <==>
                x in t.backing.rows && !Matches(x, BuildConditions(t.existingColumns, filter, p).value, p.nilMatches)
  {
    if !t.TableExists() then Step(t, Success(()))
    else
      match BuildConditions(t.existingColumns, filter, p)
      case Failure(e) => Step(t, Failure(e))
      case Success(conds) =>
        if !t.backing.created then Step(t, Failure(SQLiteFailure))
        else Step(t.(backing := t.backing.(rows := Where(t.backing.rows, conds, p.nilMatches, false))), Success(()))
  }
}

=== FILE: table_properties.dfy ===
/** What the table manager promises its callers: the effect of a store on
    the schema and the rows, the round trip from store to get, the filter
    semantics of getMany and deleteMany, and the consequences of a table
    creation that fails half-way. */
module TableProperties {
  import opened Wrappers
  import opened JsonModel
  import opened JsonResolver
  import opened SQLiteExtension
  import opened TableManager
  import opened TableInvariants

  // ---------------------------------------------------------------------
  // Helpers about member lists
  // ---------------------------------------------------------------------

  lemma {:induction false} LookupAppend(a: seq<Member>, b: seq<Member>, key: string)
    ensures Lookup(a + b, key) == if Lookup(a, key).Some? then Lookup(a, key) else Lookup(b, key)
  {
    if |a| == 0 {
      assert a + b == b;
    } else {
      assert (a + b)[0] == a[0];
      assert (a + b)[1..] == a[1..] + b;
      if a[0].key != key {
        LookupAppend(a[1..], b, key);
      }
    }
  }

  /** Two objects with the same value under every key. */
  ghost predicate SameMembers(a: Json, b: Json) {
    a.JObject? && b.JObject? && forall k :: Lookup(a.members, k) == Lookup(b.members, k)
  }

  /** The fields a document resolves to are named by its keys. */
  lemma ResolvedNoId(ms: seq<Member>)
    requires Resolve(ms).Success? && Lookup(ms, "id").None?
    ensures FirstNamed(Resolve(ms).value, "id").None?
  {
  }

  // ---------------------------------------------------------------------
  // Store
  // ---------------------------------------------------------------------

  /** The facts every store that succeeds or misses its row establishes
      before writing: the
      document resolved and validated, and the schema evolved without error
      into a valid table that covers the fields. */
  lemma StoreReachesWrite(t: Table, json: Json, faults: SchemaFaults)
    requires Valid(t) && DistinctKeys(DictionaryValue(json))
    requires Store(t, json, faults).result.Success? || Store(t, json, faults).result.error.ObjectNotExists?
    ensures Resolve(DictionaryValue(json)).Success?
    ensures var values := Resolve(DictionaryValue(json)).value;
            var t1 := EvolveSchema(t, values, faults).0;
            && ValidateTypes(values, t.existingColumns).Pass?
            && EvolveSchema(t, values, faults).1.Pass?
            && Valid(t1) && t1.TableExists() && Covers(t1.existingColumns, values)
            && t1.backing.rows == t.backing.rows && t1.backing.nextId == t.backing.nextId
            && Store(t, json, faults) == Write(t1, json, values)
  {
    var ms := DictionaryValue(json);
    assert Resolve(ms).Success?;
    var values := Resolve(ms).value;
    assert ValidateTypes(values, t.existingColumns).Pass?;
    assert EvolveSchema(t, values, faults).1.Pass?;
    ResolvedNamesDistinct(ms);
    EvolvePreservesValid(t, values, faults);
    EvolveCovers(t, values, faults);
  }

  /** The first store into an empty registry registers `id` and then the
      document's other fields in order, stopping before the first `bool`
      one; the registry keeps these columns even when creating the table
      fails. It succeeds when no field is `bool`, SQLite creates the table
      and the document has no `id`; with an integer `id` the table is
      created and the update finds no row, throwing `objectNotExists`. */
  lemma FirstStoreRegistry(t: Table, json: Json, faults: SchemaFaults, n: int)
    requires Valid(t) && !t.TableExists() && DistinctKeys(DictionaryValue(json))
    requires Resolve(DictionaryValue(json)).Success?
    ensures var values := Resolve(DictionaryValue(json)).value;
            var r := Store(t, json, faults);
            && r.table.existingColumns == [IdColumn] + CreateColumns(values).columns
            && (NoBool(NonId(values)) ==> r.table.existingColumns == [IdColumn] + NonId(values))
            && (NoBool(NonId(values)) && !faults.create && FirstNamed(values, "id").None? ==> r.result.Success?)
            && (!NoBool(NonId(values)) ==> r.result.Failure? && r.result.error.UnhandledBool?)
    ensures var values := Resolve(DictionaryValue(json)).value;
            var r := Store(t, json, faults);
            NoBool(NonId(values)) && !faults.create && Lookup(DictionaryValue(json), "id") == Some(JNumber(Integral(n))) ==>
              r.result == Failure(ObjectNotExists(n)) && r.table.backing.created && r.table.backing.rows == []
  {
    var values := Resolve(DictionaryValue(json)).value;
    if NoBool(NonId(values)) && !faults.create && Lookup(DictionaryValue(json), "id") == Some(JNumber(Integral(n))) {
      FirstStoreById(t, json, faults, n);
    }
    ValidateEmptyRegistry(values);
    assert t.existingColumns == [];
    assert [] + [IdColumn] + CreateColumns(values).columns == [IdColumn] + CreateColumns(values).columns;
    CreateColumnsStopsAtBool(values);
  }

  /** The integer-`id` case of `FirstStoreRegistry`: the table is created
      with no rows, so the update addresses none. */
  lemma FirstStoreById(t: Table, json: Json, faults: SchemaFaults, n: int)
    requires Valid(t) && !t.TableExists() && DistinctKeys(DictionaryValue(json))
    requires Resolve(DictionaryValue(json)).Success?
    requires NoBool(NonId(Resolve(DictionaryValue(json)).value)) && !faults.create
    requires Lookup(DictionaryValue(json), "id") == Some(JNumber(Integral(n)))
    ensures var r := Store(t, json, faults);
            r.result == Failure(ObjectNotExists(n)) && r.table.backing.created && r.table.backing.rows == []
  {
    var ms := DictionaryValue(json);
    var values := Resolve(ms).value;
    var i :| 0 <= i < |ms| && ms[i].key == "id" && ms[i].value == Lookup(ms, "id").value;
    ResolvedNamesDistinct(ms);
    FirstNamedOfDistinct(values, i);
    assert values[i].valueType == Int(n);
    ValidateEmptyRegistry(values);
    CreateColumnsStopsAtBool(values);
    var (t1, created) := CreateTable(t, values, faults);
    assert created.Pass? && t1.backing.created && t1.backing.rows == [];
    assert Store(t, json, faults) == Write(t1, json, values);
    assert CountId(t1.backing.rows, n) == 0;
  }

  /** A store into an existing table appends to the registry exactly the
      document's unregistered non-id fields up to the first one SQLite
      cannot add, and all of them when it succeeds. */
  lemma StoreExtendsRegistry(t: Table, json: Json, faults: SchemaFaults)
    requires Valid(t) && t.TableExists() && DistinctKeys(DictionaryValue(json))
    requires Resolve(DictionaryValue(json)).Success?
    requires ValidateTypes(Resolve(DictionaryValue(json)).value, t.existingColumns).Pass?
    ensures var added := NewColumns(t.existingColumns, Resolve(DictionaryValue(json)).value);
            var r := Store(t, json, faults);
            && (exists k :: 0 <= k <= |added| && r.table.existingColumns == t.existingColumns + added[..k])
            && (r.result.Success? ==> r.table.existingColumns == t.existingColumns + added)
  {
    var values := Resolve(DictionaryValue(json)).value;
    ResolvedNamesDistinct(DictionaryValue(json));
    AlterEffect(t, values, faults);
    var added := NewColumns(t.existingColumns, values);
    var k := FirstUnaddable(added, t.backing.created, faults);
    var (t1, evolved) := AlterTableIfNeeded(t, values, faults);
    assert EvolveSchema(t, values, faults) == (t1, evolved);
    var r := Store(t, json, faults);
    assert r == if evolved.Fail? then Step(t1, Failure(evolved.error)) else Write(t1, json, values);
    assert r.table.existingColumns == t1.existingColumns;
    assert r.table.existingColumns == t.existingColumns + added[..k];
    assert added[..|added|] == added;
  }

  /** When a store into a created table succeeds: for a document that
      resolves and validates, an insert succeeds exactly when SQLite adds a
      column for every new field, and an update by an integer `id` needs in
      addition the row with that id. */
  lemma StoreSucceedsWhen(t: Table, json: Json, faults: SchemaFaults, n: int)
    requires Valid(t) && t.TableExists() && t.backing.created && DistinctKeys(DictionaryValue(json))
    requires Resolve(DictionaryValue(json)).Success?
    requires ValidateTypes(Resolve(DictionaryValue(json)).value, t.existingColumns).Pass?
    ensures var added := NewColumns(t.existingColumns, Resolve(DictionaryValue(json)).value);
            var r := Store(t, json, faults);
            Lookup(DictionaryValue(json), "id").None? ==>
              (r.result.Success? <==> forall i :: 0 <= i < |added| ==> Addable(added[i], t.backing.created, faults))
    ensures var added := NewColumns(t.existingColumns, Resolve(DictionaryValue(json)).value);
            var r := Store(t, json, faults);
            Lookup(DictionaryValue(json), "id") == Some(JNumber(Integral(n))) ==>
              (r.result.Success? <==> (forall i :: 0 <= i < |added| ==> Addable(added[i], t.backing.created, faults))
                                      && exists x :: x in t.backing.rows && x.id == n)
    ensures var added := NewColumns(t.existingColumns, Resolve(DictionaryValue(json)).value);
            var r := Store(t, json, faults);
            Lookup(DictionaryValue(json), "id") == Some(JNumber(Integral(n)))
            && (forall i :: 0 <= i < |added| ==> Addable(added[i], t.backing.created, faults))
            && (forall x :: x in t.backing.rows ==> x.id != n) ==>
              r.result == Failure(ObjectNotExists(n)) && r.table.backing.rows == t.backing.rows
  {
    var ms := DictionaryValue(json);
    var values := Resolve(ms).value;
    StoreThroughAlter(t, json, faults);
    var t1 := AlterTableIfNeeded(t, values, faults).0;
    if Lookup(ms, "id").None? {
      ResolvedNoId(ms);
      WriteInsertSucceeds(t1, json, values);
    } else if Lookup(ms, "id") == Some(JNumber(Integral(n))) {
      var i :| 0 <= i < |ms| && ms[i].key == "id" && ms[i].value == JNumber(Integral(n));
      assert values[i] == DatabaseValue("id", Int(n));
      ResolvedNamesDistinct(ms);
      FirstNamedOfDistinct(values, i);
      WriteUpdateSucceeds(t1, json, values, n);
    }
  }

  /** On an existing table a validated store extends the schema, which
      succeeds exactly when every new column is added, and then writes. */
  lemma StoreThroughAlter(t: Table, json: Json, faults: SchemaFaults)
    requires t.TableExists() && DistinctKeys(DictionaryValue(json))
    requires Resolve(DictionaryValue(json)).Success?
    requires ValidateTypes(Resolve(DictionaryValue(json)).value, t.existingColumns).Pass?
    ensures var values := Resolve(DictionaryValue(json)).value;
            var added := NewColumns(t.existingColumns, values);
            var (t1, evolved) := AlterTableIfNeeded(t, values, faults);
            && t1.backing.created == t.backing.created && t1.backing.rows == t.backing.rows
            && (evolved.Pass? <==> forall i :: 0 <= i < |added| ==> Addable(added[i], t.backing.created, faults))
            && Store(t, json, faults) == if evolved.Fail? then Step(t1, Failure(evolved.error)) else Write(t1, json, values)
  {
    var values := Resolve(DictionaryValue(json)).value;
    ResolvedNamesDistinct(DictionaryValue(json));
    AlterEffect(t, values, faults);
    var (t1, evolved) := AlterTableIfNeeded(t, values, faults);
    assert EvolveSchema(t, values, faults) == (t1, evolved);
  }

  /** An insert into a created table succeeds. */
  lemma WriteInsertSucceeds(t: Table, json: Json, values: seq<DatabaseValue>)
    requires t.backing.created && FirstNamed(values, "id").None?
    ensures Write(t, json, values).result.Success?
  {
  }

  /** An update of a created table succeeds exactly when the row exists;
      without the row it throws `objectNotExists` and changes nothing. */
  lemma WriteUpdateSucceeds(t: Table, json: Json, values: seq<DatabaseValue>, n: int)
    requires t.backing.created && IdsAscending(t.backing.rows)
    requires FirstNamed(values, "id") == Some(DatabaseValue("id", Int(n)))
    ensures Write(t, json, values).result.Success? <==> exists x :: x in t.backing.rows && x.id == n
    ensures (forall x :: x in t.backing.rows ==> x.id != n) ==> Write(t, json, values) == Step(t, Failure(ObjectNotExists(n)))
  {
    CountIdAtMostOne(t.backing.rows, n);
    if forall x :: x in t.backing.rows ==> x.id != n {
      assert UpdateRows(t.backing.rows, n, Assignments(values)) == t.backing.rows;
    }
  }

  /** A document without `id` is inserted as one new row with the next
      auto-increment id and the document's non-id fields; the response is the
      document with that id added. Nothing else in the rows changes. */
  lemma InsertAssignsNextId(t: Table, json: Json, faults: SchemaFaults)
    requires Valid(t) && DistinctKeys(DictionaryValue(json))
    requires Lookup(DictionaryValue(json), "id").None?
    requires Store(t, json, faults).result.Success?
    ensures var r := Store(t, json, faults);
            var n := t.backing.nextId;
            && r.table.backing.rows == t.backing.rows + [Row(n, Assignments(Resolve(DictionaryValue(json)).value))]
            && r.table.backing.nextId == n + 1
            && r.result.value == WithId(json, n)
  {
    StoreReachesWrite(t, json, faults);
    ResolvedNoId(DictionaryValue(json));
  }

  /** A document whose `id` is an integer updates that row: it succeeds
      exactly when the row exists, gives that row the document's value in
      every column the document names and keeps its other cells, leaves the
      other rows alone, and answers the document unchanged. */
  lemma UpdateNeedsExistingRow(t: Table, json: Json, faults: SchemaFaults, n: int)
    requires Valid(t) && DistinctKeys(DictionaryValue(json))
    requires Lookup(DictionaryValue(json), "id") == Some(JNumber(Integral(n)))
    requires Store(t, json, faults).result.Success? || Store(t, json, faults).result == Failure(ObjectNotExists(n))
    ensures var r := Store(t, json, faults);
            && (r.result.Success? <==> exists x :: x in t.backing.rows && x.id == n)
            && (r.result.Success? ==> r.result.value == json)
            && (r.result.Failure? ==> r.table.backing.rows == t.backing.rows)
            && r.table.backing.nextId == t.backing.nextId
            && r.table.backing.rows == UpdateRows(t.backing.rows, n, Assignments(Resolve(DictionaryValue(json)).value))
    ensures var r := Store(t, json, faults);
            var ms := DictionaryValue(json);
            forall i, k :: 0 <= i < |t.backing.rows| && t.backing.rows[i].id == n && k != "id" && Lookup(ms, k).Some? ==>
              CellOf(r.table.backing.rows[i], k) == Classify(Lookup(ms, k).value)
  {
    var ms := DictionaryValue(json);
    StoreUpdate(t, json, faults, n);
    var values := Resolve(ms).value;
    var rows' := Store(t, json, faults).table.backing.rows;
    forall j, k | 0 <= j < |t.backing.rows| && t.backing.rows[j].id == n && k != "id" && Lookup(ms, k).Some?
      ensures CellOf(rows'[j], k) == Classify(Lookup(ms, k).value)
    {
      DocumentSetter(ms, values, k);
    }
  }

  /** The update branch of a store, in terms of the rows before it. */
  lemma StoreUpdate(t: Table, json: Json, faults: SchemaFaults, n: int)
    requires Valid(t) && DistinctKeys(DictionaryValue(json))
    requires Lookup(DictionaryValue(json), "id") == Some(JNumber(Integral(n)))
    requires Store(t, json, faults).result.Success? || Store(t, json, faults).result == Failure(ObjectNotExists(n))
    ensures var r := Store(t, json, faults);
            && (r.result.Success? <==> exists x :: x in t.backing.rows && x.id == n)
            && (r.result.Success? ==> r.result.value == json)
            && (r.result.Failure? ==> r.table.backing.rows == t.backing.rows)
            && r.table.backing.nextId == t.backing.nextId
            && r.table.backing.rows == UpdateRows(t.backing.rows, n, Assignments(Resolve(DictionaryValue(json)).value))
  {
    var ms := DictionaryValue(json);
    StoreReachesWrite(t, json, faults);
    var values := Resolve(ms).value;
    var i :| 0 <= i < |ms| && ms[i].key == "id" && ms[i].value == JNumber(Integral(n));
    assert values[i] == DatabaseValue("id", Int(n));
    ResolvedNamesDistinct(ms);
    FirstNamedOfDistinct(values, i);
    WriteUpdate(EvolveSchema(t, values, faults).0, json, values, n);
  }

  /** The setter for a named non-id key carries the document's value. */
  lemma DocumentSetter(ms: seq<Member>, values: seq<DatabaseValue>, k: string)
    requires DistinctKeys(ms) && Resolve(ms) == Success(values)
    requires k != "id" && Lookup(ms, k).Some?
    ensures k in Assignments(values) && Some(Assignments(values)[k]) == Classify(Lookup(ms, k).value)
  {
    var i :| 0 <= i < |ms| && ms[i].key == k && ms[i].value == Lookup(ms, k).value;
    ResolvedNamesDistinct(ms);
    FirstNamedOfDistinct(values, i);
  }

  /** The update branch of the write, on a valid table. */
  lemma WriteUpdate(t: Table, json: Json, values: seq<DatabaseValue>, n: int)
    requires Valid(t)
    requires FirstNamed(values, "id") == Some(DatabaseValue("id", Int(n)))
    requires Write(t, json, values).result.Success? || Write(t, json, values).result == Failure(ObjectNotExists(n))
    ensures var r := Write(t, json, values);
            && (r.result.Success? <==> exists x :: x in t.backing.rows && x.id == n)
            && (r.result.Success? ==> r.result.value == json)
            && (r.result.Failure? ==> r.table.backing.rows == t.backing.rows)
            && r.table.backing.nextId == t.backing.nextId
            && r.table.backing.rows == UpdateRows(t.backing.rows, n, Assignments(values))
  {
    CountIdAtMostOne(t.backing.rows, n);
    if CountId(t.backing.rows, n) == 0 {
      var rows' := UpdateRows(t.backing.rows, n, Assignments(values));
      assert rows' == t.backing.rows;
    }
  }

  /** An `id` that is not an integer is rejected without effect once the
      registry has its int `id` column: validation reports the mismatch
      (for this or an earlier field). */
  lemma NonIntIdMismatch(t: Table, json: Json, faults: SchemaFaults)
    requires Valid(t) && t.TableExists() && DistinctKeys(DictionaryValue(json))
    requires Lookup(DictionaryValue(json), "id").Some?
    requires Classify(Lookup(DictionaryValue(json), "id").value).Some?
    requires !Classify(Lookup(DictionaryValue(json), "id").value).value.Int?
    ensures var r := Store(t, json, faults);
            r.table == t && r.result.Failure? && r.result.error.Resolver?
    ensures Resolve(DictionaryValue(json)).Success? ==>
              Store(t, json, faults).result.error.cause.TypeMismatch?
  {
    var ms := DictionaryValue(json);
    if Resolve(ms).Success? {
      var values := Resolve(ms).value;
      var i :| 0 <= i < |ms| && ms[i].key == "id" && ms[i].value == Lookup(ms, "id").value;
      assert values[i].name == "id";
      FirstNamedOfDistinct(t.existingColumns, 0);
      assert !Conforms(values[i], t.existingColumns);
    }
  }

  /** On an empty registry the same document is not caught by validation:
      the table is created (or its creation attempted) first, and only then
      does the write throw `invalidIdType`, leaving the new registry behind. */
  lemma NonIntIdOnEmptyRegistry(t: Table, json: Json, faults: SchemaFaults)
    requires Valid(t) && !t.TableExists() && DistinctKeys(DictionaryValue(json))
    requires Resolve(DictionaryValue(json)).Success?
    requires Lookup(DictionaryValue(json), "id").Some?
    requires !Classify(Lookup(DictionaryValue(json), "id").value).value.Int?
    ensures var r := Store(t, json, faults);
            && r.table.TableExists()
            && r.result.Failure?
            && (NoBool(NonId(Resolve(DictionaryValue(json)).value)) && !faults.create ==> r.result.error == InvalidIdType)
  {
    var ms := DictionaryValue(json);
    var values := Resolve(ms).value;
    var i :| 0 <= i < |ms| && ms[i].key == "id" && ms[i].value == Lookup(ms, "id").value;
    ResolvedNamesDistinct(ms);
    FirstNamedOfDistinct(values, i);
    ValidateEmptyRegistry(values);
    CreateColumnsStopsAtBool(values);
    var (t1, created) := CreateTable(t, values, faults);
    var r := Store(t, json, faults);
    assert r == if created.Fail? then Step(t1, Failure(created.error)) else Write(t1, json, values);
    assert !values[i].valueType.Int?;
  }

  /** Storing a document without `id` and reading the assigned id back
      gives the document with its id: the same value under every key. */
  lemma StoreThenGet(t: Table, json: Json, faults: SchemaFaults)
    requires Valid(t) && json.JObject? && DistinctKeys(json.members)
    requires Lookup(json.members, "id").None?
    requires Store(t, json, faults).result.Success?
    ensures var r := Store(t, json, faults);
            var n := t.backing.nextId;
            && r.result.value == WithId(json, n)
            && Get(r.table, n).Success? && Get(r.table, n).value.Some?
            && SameMembers(Get(r.table, n).value.value, r.result.value)
  {
    var ms := json.members;
    var values := Resolve(ms).value;
    StoreReachesWrite(t, json, faults);
    ResolvedNoId(ms);
    ResolvedNamesDistinct(ms);
    var t1 := EvolveSchema(t, values, faults).0;
    InsertThenGet(t1, json, values);
  }

  /** The insert branch of the write followed by `get` of the new id. */
  lemma InsertThenGet(t: Table, json: Json, values: seq<DatabaseValue>)
    requires Valid(t) && t.TableExists() && json.JObject? && DistinctKeys(json.members)
    requires Resolve(json.members) == Success(values) && Covers(t.existingColumns, values)
    requires FirstNamed(values, "id").None?
    requires Write(t, json, values).result.Success?
    ensures var r := Write(t, json, values);
            var n := t.backing.nextId;
            && r.result.value == WithId(json, n)
            && Get(r.table, n).Success? && Get(r.table, n).value.Some?
            && SameMembers(Get(r.table, n).value.value, r.result.value)
  {
    var n := t.backing.nextId;
    var row := Row(n, Assignments(values));
    var r := Write(t, json, values);
    assert r.table.backing.rows == t.backing.rows + [row];
    RowWithIdAppended(t.backing.rows, row);
    assert Get(r.table, n) == Success(Some(JObject(Project(t.existingColumns, row))));
    IdRegistered(t);
    forall k
      ensures Lookup(Project(t.existingColumns, row), k) == Lookup(json.members + [Member("id", JNumber(Integral(n)))], k)
    {
      ProjectInsertedKey(t.existingColumns, json.members, values, n, k);
    }
  }

  /** A row appended after rows with smaller ids is the one found by its id. */
  lemma RowWithIdAppended(rows: seq<Row>, row: Row)
    requires forall x :: x in rows ==> x.id < row.id
    ensures RowWithId(rows + [row], row.id) == Some(row)
  {
  }

  /** Key by key, the projection of the inserted row is the document with
      its id appended. */
  lemma ProjectInsertedKey(cols: seq<DatabaseValue>, ms: seq<Member>, values: seq<DatabaseValue>, n: int, k: string)
    requires Registered(cols, "id")
    requires DistinctKeys(ms) && Resolve(ms) == Success(values) && Covers(cols, values)
    requires FirstNamed(values, "id").None?
    ensures Lookup(Project(cols, Row(n, Assignments(values))), k) == Lookup(ms + [Member("id", JNumber(Integral(n)))], k)
  {
    LookupAppend(ms, [Member("id", JNumber(Integral(n)))], k);
    if k == "id" {
      ProjectedId(cols, Row(n, Assignments(values)));
    } else if Lookup(ms, k).Some? {
      ProjectInsertedField(cols, ms, values, n, k);
    } else {
      ProjectInsertedAbsent(ms, values, n, k);
    }
  }

  /** A registered `id` column puts the row's id into its projection. */
  lemma ProjectedId(cols: seq<DatabaseValue>, row: Row)
    requires Registered(cols, "id")
    ensures Lookup(Project(cols, row), "id") == Some(JNumber(Integral(row.id)))
  {
  }

  lemma ProjectInsertedField(cols: seq<DatabaseValue>, ms: seq<Member>, values: seq<DatabaseValue>, n: int, k: string)
    requires DistinctKeys(ms) && Resolve(ms) == Success(values) && Covers(cols, values)
    requires k != "id" && Lookup(ms, k).Some?
    ensures CellOf(Row(n, Assignments(values)), k) == Classify(Lookup(ms, k).value)
    ensures Registered(cols, k)
  {
    var i :| 0 <= i < |ms| && ms[i].key == k && ms[i].value == Lookup(ms, k).value;
    ResolvedNamesDistinct(ms);
    FirstNamedOfDistinct(values, i);
  }

  lemma ProjectInsertedAbsent(ms: seq<Member>, values: seq<DatabaseValue>, n: int, k: string)
    requires Resolve(ms) == Success(values)
    requires k != "id" && Lookup(ms, k).None?
    ensures CellOf(Row(n, Assignments(values)), k).None?
  {
    assert !Registered(values, k);
  }

  // ---------------------------------------------------------------------
  // A failed table creation
  // ---------------------------------------------------------------------

  /** A registry without a created table is stranded: every later store
      fails and leaves it stranded, and every read of a row fails. */
  lemma StrandedStaysStranded(t: Table, json: Json, faults: SchemaFaults, id: int)
    requires Valid(t) && t.TableExists() && !t.backing.created
    ensures Store(t, json, faults).result.Failure?
    ensures !Store(t, json, faults).table.backing.created && Store(t, json, faults).table.TableExists()
    ensures Get(t, id) == Failure(SQLiteFailure)
    ensures Delete(t, id) == Step(t, Failure(SQLiteFailure))
  {
  }

  /** A first store of a document with a non-id `bool` field throws
      `UnhandledBool` for the first such field and strands the table: `id`
      and the fields before it stay registered, and SQLite never creates
      the table. */
  lemma BoolFieldStrandsTable(t: Table, json: Json, faults: SchemaFaults)
    requires Valid(t) && !t.TableExists()
    requires Resolve(DictionaryValue(json)).Success?
    requires !NoBool(NonId(Resolve(DictionaryValue(json)).value))
    ensures var fields := NonId(Resolve(DictionaryValue(json)).value);
            var r := Store(t, json, faults);
            exists k :: 0 <= k < |fields| && fields[k].valueType.Bool? && NoBool(fields[..k])
                        && r.result == Failure(UnhandledBool(fields[k].name))
                        && r.table.existingColumns == [IdColumn] + fields[..k]
    ensures Store(t, json, faults).table.TableExists() && !Store(t, json, faults).table.backing.created
  {
    var values := Resolve(DictionaryValue(json)).value;
    var fields := NonId(values);
    ValidateEmptyRegistry(values);
    var (t1, created) := CreateTable(t, values, faults);
    CreateStopsAtBool(t, values, faults);
    var k := |CreateColumns(values).columns|;
    assert EvolveSchema(t, values, faults) == (t1, created);
    assert created.Fail?;
    var r := Store(t, json, faults);
    assert r == Step(t1, Failure(created.error));
    assert 0 <= k < |fields| && fields[k].valueType.Bool? && NoBool(fields[..k])
           && r.result == Failure(UnhandledBool(fields[k].name))
           && r.table.existingColumns == [IdColumn] + fields[..k];
  }

  /** Creation with a non-id `bool` field stops at the first one. */
  lemma CreateStopsAtBool(t: Table, values: seq<DatabaseValue>, faults: SchemaFaults)
    requires t.existingColumns == [] && !NoBool(NonId(values))
    ensures var fields := NonId(values);
            var (t1, created) := CreateTable(t, values, faults);
            var k := |CreateColumns(values).columns|;
            && 0 <= k < |fields| && fields[k].valueType.Bool? && NoBool(fields[..k])
            && created == Fail(UnhandledBool(fields[k].name))
            && t1.existingColumns == [IdColumn] + fields[..k]
            && t1.backing == t.backing
  {
    CreateColumnsStopsAtBool(values);
    var built := CreateColumns(values);
    var k := |built.columns|;
    assert built.columns == NonId(values)[..k];
  }

  /** The smallest such document, `{"done": true}`. */
  lemma DoneFlagStrandsTable()
    ensures var r := Store(EmptyTable, JObject([Member("done", JBool(true))]), SchemaFaults(false, {}));
            && r.result == Failure(UnhandledBool("done"))
            && r.table.existingColumns == [IdColumn]
            && !r.table.backing.created
  {
    var values := [DatabaseValue("done", Bool(true))];
    var ms := [Member("done", JBool(true))];
    assert ms[1..] == [];
    assert Resolve(ms[1..]) == Success([]);
    assert Classify(ms[0].value) == Some(Bool(true));
    assert [DatabaseValue("done", Bool(true))] + [] == values;
    assert Resolve(ms) == Success(values);
    assert NonId(values) == values;
    assert CreateColumns(values) == Built([], Some("done"));
  }

  // ---------------------------------------------------------------------
  // Reading
  // ---------------------------------------------------------------------

  /** Every value `get` reports is of its column's registered kind. */
  lemma GetReportsRegisteredKinds(t: Table, id: int, key: string)
    requires Valid(t)
    requires Get(t, id).Success? && Get(t, id).value.Some?
    requires Lookup(Get(t, id).value.value.members, key).Some?
    ensures Registered(t.existingColumns, key)
    ensures exists v :: Lookup(Get(t, id).value.value.members, key) == Some(ToJson(v))
                        && v.TypeIsEqual(FirstNamed(t.existingColumns, key).value.valueType)
  {
    var x :| x in t.backing.rows && x.id == id && Get(t, id).value.value == JObject(Project(t.existingColumns, x));
    var v := CellOf(x, key).value;
    assert CellsConform(x, t.existingColumns);
    if key == "id" {
      IdRegistered(t);
    }
    assert Lookup(Get(t, id).value.value.members, key) == Some(ToJson(v));
  }

  /** Whether a row satisfies every entry of a filter on the given columns,
      each entry read by its column's registered kind. */
  predicate Selected(cols: Registry, row: Row, filter: seq<(string, string)>, p: FilterParsers)
    requires forall i :: 0 <= i < |filter| ==> Registered(cols, filter[i].0)
  {
    forall i :: 0 <= i < |filter| ==>
      Holds(row, ConditionFor(ColumnNamed(cols, filter[i].0), filter[i].1, p), p.nilMatches)
  }

  /** The registered column with the given name. */
  function ColumnNamed(cols: Registry, name: string): (c: DatabaseValue)
    requires Registered(cols, name)
    ensures c in cols && c.name == name && !c.valueType.Bool?
  {
    FirstNamed(cols, name).value
  }

  lemma MatchesIsSelected(cols: Registry, row: Row, filter: seq<(string, string)>, p: FilterParsers)
    requires BuildConditions(cols, filter, p).Success?
    ensures Matches(row, BuildConditions(cols, filter, p).value, p.nilMatches) <==> Selected(cols, row, filter, p)
  {
  }

  /** Rows with distinct ids project to distinct objects: `id` is always
      registered and never NULL. */
  lemma ProjectInjective(t: Table, x: Row, y: Row)
    requires Valid(t) && t.TableExists()
    requires x.id != y.id
    ensures Project(t.existingColumns, x) != Project(t.existingColumns, y)
  {
    IdRegistered(t);
    ProjectedId(t.existingColumns, x);
    ProjectedId(t.existingColumns, y);
  }

  /** Projecting some of a valid table's rows gives an object for a row
      exactly when the row is among them. */
  lemma ProjectedMembership(t: Table, kept: seq<Row>)
    requires Valid(t) && t.TableExists()
    requires forall x :: x in kept ==> x in t.backing.rows
    ensures forall x :: x in t.backing.rows ==>
              (JObject(Project(t.existingColumns, x)) in ProjectAll(t.existingColumns, kept) <==> x in kept)
  {
    var items := ProjectAll(t.existingColumns, kept);
    forall x | x in t.backing.rows && JObject(Project(t.existingColumns, x)) in items
      ensures x in kept
    {
      var j :| 0 <= j < |items| && items[j] == JObject(Project(t.existingColumns, x));
      assert kept[j] in kept;
      if kept[j].id != x.id {
        ProjectInjective(t, kept[j], x);
      } else {
        var a :| 0 <= a < |t.backing.rows| && t.backing.rows[a] == kept[j];
        var b :| 0 <= b < |t.backing.rows| && t.backing.rows[b] == x;
        assert a == b;
      }
    }
    forall x | x in kept
      ensures JObject(Project(t.existingColumns, x)) in items
    {
      var j :| 0 <= j < |kept| && kept[j] == x;
      assert items[j] == JObject(Project(t.existingColumns, x));
    }
  }

  /** The object is the projection of a row the filter selects. */
  ghost predicate ProjectionOfSelected(t: Table, filter: seq<(string, string)>, p: FilterParsers, item: Json)
    requires forall i :: 0 <= i < |filter| ==> Registered(t.existingColumns, filter[i].0)
  {
    exists x :: x in t.backing.rows && Selected(t.existingColumns, x, filter, p) && item == JObject(Project(t.existingColumns, x))
  }

  /** `getMany` answers the projections of exactly the rows the filter
      selects, and no more objects than there are rows. */
  lemma GetManySelects(t: Table, filter: seq<(string, string)>, p: FilterParsers)
    requires Valid(t) && t.TableExists() && t.backing.created
    requires forall i :: 0 <= i < |filter| ==> Registered(t.existingColumns, filter[i].0)
    ensures GetMany(t, Some(filter), p).Success?
    ensures var items := GetMany(t, Some(filter), p).value.value.items;
            && |items| <= |t.backing.rows|
            && (forall j :: 0 <= j < |items| ==> ProjectionOfSelected(t, filter, p, items[j]))
            && (forall x :: x in t.backing.rows ==>
                  (JObject(Project(t.existingColumns, x)) in items <==> Selected(t.existingColumns, x, filter, p)))
  {
    var conds := BuildConditions(t.existingColumns, filter, p).value;
    var kept := Where(t.backing.rows, conds, p.nilMatches, true);
    var items := ProjectAll(t.existingColumns, kept);
    assert GetMany(t, Some(filter), p) == Success(Some(JArray(items)));
    ProjectedMembership(t, kept);
    forall x | x in t.backing.rows
      ensures JObject(Project(t.existingColumns, x)) in items <==> Selected(t.existingColumns, x, filter, p)
    {
      MatchesIsSelected(t.existingColumns, x, filter, p);
    }
    forall j | 0 <= j < |items|
      ensures ProjectionOfSelected(t, filter, p, items[j])
    {
      var x := kept[j];
      assert x in kept;
      MatchesIsSelected(t.existingColumns, x, filter, p);
      assert x in t.backing.rows;
      assert Selected(t.existingColumns, x, filter, p);
      assert items[j] == JObject(Project(t.existingColumns, x));
    }
    assert GetMany(t, Some(filter), p).value.value.items == items;
  }

  /** Without a filter `getMany` answers every row, in row order. */
  lemma GetManyWithoutFilter(t: Table, p: FilterParsers)
    requires t.TableExists() && t.backing.created
    ensures GetMany(t, None, p).Success?
    ensures var items := GetMany(t, None, p).value.value.items;
            |items| == |t.backing.rows|
            && forall i :: 0 <= i < |items| ==> items[i] == JObject(Project(t.existingColumns, t.backing.rows[i]))
  {
    WhereAll(t.backing.rows, p.nilMatches);
  }

  /** With no conditions every row matches. */
  lemma {:induction false} WhereAll(rows: seq<Row>, nilMatches: Option<ValueType> -> bool)
    ensures Where(rows, [], nilMatches, true) == rows
  {
    if |rows| > 0 {
      WhereAll(rows[1..], nilMatches);
      assert [rows[0]] + rows[1..] == rows;
    }
  }

  // ---------------------------------------------------------------------
  // Deleting
  // ---------------------------------------------------------------------

  /** `delete(id:)` on a created table succeeds exactly when the row exists,
      and removes that row alone. */
  lemma DeleteExactlyOne(t: Table, id: int)
    requires Valid(t) && t.TableExists() && t.backing.created
    ensures var r := Delete(t, id);
            && (r.result.Success? <==> exists x :: x in t.backing.rows && x.id == id)
            && (r.result.Failure? ==> r.result.error == ObjectNotExists(id))
            && forall x :: x in r.table.backing.rows <==> x in t.backing.rows && x.id != id
  {
    CountIdAtMostOne(t.backing.rows, id);
  }

  /** `deleteMany` on a created table with a valid filter always succeeds,
      removing exactly the selected rows and keeping the rest. */
  lemma DeleteManyRemovesSelected(t: Table, filter: seq<(string, string)>, p: FilterParsers)
    requires t.TableExists() && t.backing.created
    requires forall i :: 0 <= i < |filter| ==> Registered(t.existingColumns, filter[i].0)
    ensures var r := DeleteMany(t, filter, p);
            && r.result.Success?
            && forall x :: x in r.table.backing.rows <==> x in t.backing.rows && !Selected(t.existingColumns, x, filter, p)
  {
    forall x | x in t.backing.rows
      ensures Matches(x, BuildConditions(t.existingColumns, filter, p).value, p.nilMatches) <==> Selected(t.existingColumns, x, filter, p)
    {
      MatchesIsSelected(t.existingColumns, x, filter, p);
    }
  }

  // ---------------------------------------------------------------------
  // Reopening
  // ---------------------------------------------------------------------

  /** The schema depends on the columns' names and kinds only. */
  lemma {:induction false} SchemaMembersByKind(a: seq<DatabaseValue>, b: seq<DatabaseValue>)
    requires |a| == |b|
    requires forall i :: 0 <= i < |a| ==> a[i].name == b[i].name && a[i].valueType.TypeIsEqual(b[i].valueType)
    ensures SchemaMembers(a) == SchemaMembers(b)
  {
    if |a| > 0 {
      TypeIsEqualIffSameTag(a[0].valueType, b[0].valueType);
      SchemaMembersByKind(a[1..], b[1..]);
    }
  }

  /** A table manager constructed again over the columns SQLite reports for
      a table it created rebuilds a registry with the same names and kinds,
      and so reports the same schema. Over a stranded registry SQLite has no
      columns, so the rebuilt registry is empty and the next store creates
      the table anew. */
  lemma ReopenKeepsSchema(t: Table)
    requires Valid(t)
    ensures Init(t.backing.columns, t.backing).Success?
    ensures var t' := Init(t.backing.columns, t.backing).value;
            && t'.backing == t.backing
            && Valid(t')
            && (t.backing.created || !t.TableExists() ==>
                  && |t'.existingColumns| == |t.existingColumns|
                  && (forall i :: 0 <= i < |t.existingColumns| ==>
                        t'.existingColumns[i].name == t.existingColumns[i].name
                        && t'.existingColumns[i].valueType.TypeIsEqual(t.existingColumns[i].valueType))
                  && Schema(t') == Schema(t))
            && (!t.backing.created ==> !t'.TableExists())
  {
    if t.backing.created {
      var defs := t.backing.columns;
      forall i | 0 <= i < |defs|
        ensures AffinityValueType(defs[i].affinity).Some?
                && AffinityValueType(defs[i].affinity).value.TypeIsEqual(t.existingColumns[i].valueType)
      {
        DeclaredAffinityRoundTrip(t.existingColumns[i].valueType);
      }
      var t' := Init(defs, t.backing).value;
      SchemaMembersByKind(t'.existingColumns, t.existingColumns);
      if t.TableExists() {
        assert defs[0].affinity == INTEGER;
      }
      ReopenedValid(t, t');
    }
  }

  /** A registry rebuilt with the same names and kinds, `id` first again,
      keeps the invariant. */
  lemma ReopenedValid(t: Table, t': Table)
    requires Valid(t) && t'.backing == t.backing
    requires |t'.existingColumns| == |t.existingColumns|
    requires forall i :: 0 <= i < |t.existingColumns| ==>
               t'.existingColumns[i].name == t.existingColumns[i].name
               && t'.existingColumns[i].valueType.TypeIsEqual(t.existingColumns[i].valueType)
    requires t.TableExists() ==> t'.existingColumns[0] == IdColumn
    ensures Valid(t')
  {
    forall x | x in t.backing.rows
      ensures CellsConform(x, t'.existingColumns)
    {
      forall k | k in x.cells
        ensures k != "id" && Registered(t'.existingColumns, k)
                && FirstNamed(t'.existingColumns, k).value.valueType.TypeIsEqual(x.cells[k])
      {
        FirstNamedByKind(t'.existingColumns, t.existingColumns, k);
        TypeIsEqualIsEquivalence(FirstNamed(t'.existingColumns, k).value.valueType,
                                 FirstNamed(t.existingColumns, k).value.valueType, x.cells[k]);
      }
    }
  }

  /** Registries with the same names and kinds, position by position, find
      a name alike and give it the same kind. */
  lemma {:induction false} FirstNamedByKind(a: seq<DatabaseValue>, b: seq<DatabaseValue>, name: string)
    requires |a| == |b|
    requires forall i :: 0 <= i < |b| ==> a[i].name == b[i].name && a[i].valueType.TypeIsEqual(b[i].valueType)
    ensures FirstNamed(a, name).Some? <==> FirstNamed(b, name).Some?
    ensures FirstNamed(a, name).Some? ==>
              FirstNamed(a, name).value.valueType.TypeIsEqual(FirstNamed(b, name).value.valueType)
  {
    if |a| > 0 && a[0].name != name {
      FirstNamedByKind(a[1..], b[1..], name);
    }
  }
}

=== FILE: wrappers.dfy ===
/** How the model writes what Swift expresses with optionals and `throws`.
    An operation that can throw answers a `Result` (a value, or the error
    it would have thrown) or, when it returns nothing, an `Outcome`. */
module Wrappers {

  /** A Swift optional. */
  datatype Option<+T> = None | Some(value: T) {

    /** Swift's `x ?? default`. */
    function GetOr(default: T): T {
      if Some? then value else default
    }
  }

  /** The value a throwing function returns, or the error it throws. */
  datatype Result<+T, +E> = Success(value: T) | Failure(error: E)

  /** A throwing function returning `Void`: it completes or throws. */
  datatype Outcome<+E> = Pass | Fail(error: E)
}
